=== FILE: README.md ===
# goloadenv in Dafny

A model of `goloadenv`, a Go library that fills a configuration struct from
environment variables, driven by `env` struct tags such as
`env:"DB_USER;default:user;optional"`. It covers the following parts:

- **Tag parser.** `SplitTags`, the `strings.FieldsFunc` call of `getTags`, and
  `tagSliceToKeyMap`. It turns a tag into a directive map with a `name`, an
  optional `default` and bare flags. It also records every name in the
  process-wide set of names already seen.
- **Value resolution (`getField`).** Takes the environment value, else the
  default, else "" for an optional field. Otherwise it fails with
  `EnvNotFoundError`.
- **Conversion (`setField`).** A converter registered for the field's type is
  used first. Otherwise the `fmt.Sscan` fallback applies. Failures become
  `EnvParseError`s.
- **Collections.** `parseArrayString` parses a list literal such as `[1,2,3]`.
  `setIterableField` fills a fixed-size array or a freshly sized slice,
  element by element.
- **The walker (`LoadEnv`).** Refuses anything but a pointer to a struct. Then
  it visits the fields in declaration order, recurses into struct-kind
  fields, and stops at the first error. Only tag errors and nested-struct
  errors are wrapped with context (load_config.go:85 and :91). Not-found and
  parse errors are returned as they are (load_config.go:101, :109 and :115).
- **The converter registry (env_type.go).** A map from a type to its
  converter. It starts with `slog.Level` only, and `RegisterEnvType` installs
  or replaces an entry.

Go reflection is replaced by an explicit schema (module `Schema`):

- A struct is a sequence of `Field(name, tag, settable, kind)`.
- The kind is one of `Scalar`, `Nested`, `Array` (the length is that of its
  contents and never changes) or `Slice`. Each kind holds the field's current
  contents.
- `settable` stands for reflection's `CanSet`.

Other modelling choices:

- **Environment.** A `map<string, string>` stands for the process
  environment. An unset variable reads as "", as `os.Getenv` returns.
- **Seen names.** The global `tagNames` set becomes an explicit
  `set<string>`, passed in and returned by every step, because it outlives
  each call (the tests reset it by hand).
- **Side effects.** Go mutates the struct through the pointer and never rolls
  back. So every step returns the struct as it was left together with its
  error, which makes partial effects visible.
- **Conversion.** Parsing is a parameter: a `Registry` of `Converter`
  functions plus a `Scanner` standing for `fmt.Sscan`.
- **Panics.** Inputs on which the Go code panics are excluded by
  preconditions:
  - a `default` read as a key with no token after it (the read past the
    end at load_config.go:229);
  - a zero-length array (`Index(0)` at load_config.go:193).

Modules, in dependency order:

- `Wrappers`: `Option` and `Result`.
- `Strings`: `FieldsFunc`, `Split`, `Join` and `%d`.
- `Errors`: the error values and their `Error()` texts.
- `Schema`, `EnvTypes`, `Tags`, `Resolve`, `Convert`, `Collections` and
  `Loader`: the modelled code itself.
- `LoadProperties`: properties of the walker that combine several steps.
- `Scenarios`: the cases of load_config_test.go, stated for any seven
  distinct tag-safe variable names. `GoNames` is the test's own choice of
  names.

Behaviour of the code worth knowing:

- **List literals.** In `parseArrayString`, `&&` binds tighter than `||`, so a
  literal is accepted when it is at least two characters long and starts
  with `[` or ends with `]` (load_config.go:202). The first and last
  characters are then dropped, whatever they are, and the rest is split on
  `,` (`Collections.OneBracketSuffices`).
- **Per-element errors.** An element's parse error carries the element text,
  not the whole literal.
- **Tagged struct fields.** A tagged struct field records its name before its
  own fields are walked.
- **Nested-struct errors.** These name the nested struct's first field.

## Model

| member | source | states |
|---|---|---|
| Strings.Fields | load_config.go:123 | every token of a split tag is non-empty and free of separators |
| Strings.FieldsKeepEveryOtherChar | load_config.go:123 | the tokens, concatenated, are the input with every separator deleted: splitting drops separators and nothing else |
| Strings.FieldsAroundSeparator | load_config.go:123 | splitting `a + sep + b` gives the tokens of `a` followed by those of `b` |
| Strings.FieldsOfInterleave | load_config.go:123 | separator-free tokens joined by separators split back into exactly those tokens |
| Strings.JoinSplit | load_config.go:206 | joining the pieces of `strings.Split` with the separator gives back the input |
| Strings.SplitJoin | load_config.go:206 | splitting a join of separator-free pieces gives back the pieces |
| Strings.Split | load_config.go:206 | `strings.Split` always yields at least one piece, and no piece contains the separator |
| Strings.SplitCount | load_config.go:206 | `strings.Split` yields one more piece than there are separators |
| Strings.NatToString | load_config.go:187 | `%d` prints a non-empty run of decimal digits with no leading zero |
| Strings.DecimalRoundTrip | load_config.go:187 | reading the `%d` text back as a decimal number gives the number printed |
| Errors.Message | load_config.go:15-33 | every error text is non-empty; a not-found text ends with the variable name; a parse error ends with its cause's text, a tag error with the tag error's text, and a nested-struct error with the inner error's full text (the wrapping at load_config.go:85 and :91) |
| Errors.DuplicateTagMessage | load_config.go:85 | a duplicate name always surfaces as text ending in ": duplicate tag: <name>" |
| Errors.NestedMessageEmbedsCause | load_config.go:91 | a nested failure's text starts with "error loading nested struct '" and ends with the inner error's text |
| Errors.OverflowMessage | load_config.go:187 | the overflow text reads back the array length and the element count it reports |
| EnvTypes.Initial | env_type.go:14-16 | the initial registry has exactly one key, `slog.Level`, mapped to `UnmarshalEnvSlogLevel` |
| EnvTypes.Register | env_type.go:18-21 | after registering T, T maps to its converter; the key set grows by T only; every other entry is unchanged |
| EnvTypes.Lookup | load_config.go:153 | the lookup finds a converter exactly when the type is a key, and finds that key's converter |
| EnvTypes.RegisterOverwrites | env_type.go:20 | registering T twice keeps only the second converter |
| EnvTypes.RegisterCommutes | env_type.go:20 | registrations of two different types give the same registry in either order |
| Tags.ParseOptions | load_config.go:225-233 | a failure is always "duplicate tag: default" and needs two `default` tokens; every key comes from the starting map or the tokens; keys the tokens do not name keep their values; a key other than `default` maps to "" or keeps its value; a default read here is the token after some `default` |
| Tags.OptionsAfterDefault | load_config.go:225-228 | once a default has been read, the option list fails exactly when another `default` follows |
| Tags.OptionsWithoutDefaultKey | load_config.go:225-233 | an option list with no `default` token parses and sets no default |
| Tags.OptionsFirstDefaultKey | load_config.go:225-231 | the first `default` is read as a key and its successor as its value, so the list fails exactly when another `default` follows that value |
| Tags.DefaultValueMayBeDefault | load_config.go:225-233 | in "X;default:default;foo" the second `default` is the value, not a key: the tag parses with default `default` and flag `foo` |
| Tags.OptionsFirstDefaultValue | load_config.go:229 | the default's value is the token right after the first `default` |
| Tags.OptionsAllFlags | load_config.go:225-233 | with no `default` token left, the list parses to the starting map plus every remaining token mapped to "" |
| Tags.OptionsExact | load_config.go:225-233 | with `j` the first `default` and no `default` after its value, the list parses to the starting map plus the flags before `j` mapped to "", `default` mapped to the token after `j`, and the flags after that mapped to "" |
| Tags.NamedTagOutcome | load_config.go:213-236 | for a new name, the whole map: the name plus every flag mapped to "" when there is no `default`; otherwise a failure exactly when another `default` follows the first one's value, and on success the name, the flags mapped to "" and the token after the first `default` as the default |
| Tags.TagSliceToKeyMapExact | load_config.go:213-236 | the same whole map, stated for `tagSliceToKeyMap` |
| Tags.SplitTags | load_config.go:240-242 | a character separates tag tokens exactly when it is `;` or `:` |
| Tags.GetTags | load_config.go:121-125 | an empty tag parses to an empty map and records nothing; no parsed value contains `;` or `:` |
| Tags.TagSliceToKeyMap | load_config.go:213-236 | no tokens gives an empty map; a name already seen fails with "duplicate tag: <name>" and leaves the set as it was; otherwise the set grows by exactly the name; the first token becomes `name` unless a later token is itself `name`; a new name parses exactly when no second `default` is read as a key after the first `default` and its value, and the default is then the token after the first `default`; `TagSliceToKeyMapExact` gives the whole map |
| Tags.ValuesAreSeparatorFree | load_config.go:121-125 | no parsed value, and so no default, contains `;` or `:` |
| Tags.OptionValuesAreTokens | load_config.go:225-233 | every value in the map is "", a value already there, or a token of the tag |
| Tags.SkipFlags | load_config.go:233 | flags are added one by one and change nothing else, including whether a default was seen |
| Tags.RenderRoundTrip | load_config.go:121-125 | the tag text of a directive (name, optional default, flags) parses back to that directive's map and records exactly its name |
| Tags.SecondDefaultFails | load_config.go:225-228 | appending ";default:v" to a tag that already has a default fails with "duplicate tag: default", after the name was recorded |
| Resolve.GetField | load_config.go:131-145 | a non-empty environment value wins; otherwise the default; otherwise "" when optional; otherwise `EnvNotFoundError` for the name, and only then |
| Resolve.ResolveDirective | load_config.go:131-145 | the same four cases, stated for the directive a tag spells |
| Convert.ConverterFor | load_config.go:153-165 | a registered converter is used for its type; otherwise the scan fallback |
| Convert.SetField | load_config.go:149-167 | succeeds exactly when the field is settable and the converter accepts the text, with the converter's value; a refusal becomes `EnvParseError` carrying the raw text, the variable name and the converter's message; an unsettable field fails with "field cannot be set" |
| Convert.RegisteredConverterWins | load_config.go:153-160 | with a converter registered for the type, the scan fallback is never consulted, and an accepted text loads as the converter's value |
| Convert.RegisterLeavesOtherTypes | env_type.go:20 | registering a converter for one type changes nothing for fields of another type |
| Collections.ParseArrayString | load_config.go:201-207 | refuses exactly the texts shorter than two characters or lacking both brackets, with "invalid array format"; otherwise the pieces join back to the text without its first and last characters, number one more than its commas, and contain no comma |
| Collections.ParseBracketed | load_config.go:201-207 | round trip: comma-free elements written as "[e1,...,em]" parse back to themselves |
| Collections.OneBracketSuffices | load_config.go:202-205 | one bracket is enough, and the character at the other end is dropped whatever it is |
| Collections.SetElements | load_config.go:192-197 | elements are stored in order; a failure stops the loop at the first element that fails, with that element's text rather than the whole literal, after the elements before it were stored, and leaves that position and everything after it as they were; positions outside the list are unchanged |
| Collections.StoreList | load_config.go:189-197 | a slice is remade with one element per entry; a failure stops at some element after the ones before it were stored, with that element's own error, leaving an array's later positions as they were and a slice's at zero |
| Collections.SetIterableField | load_config.go:171-199 | an array keeps its length; a slice is remade with one element per list entry; every error is an `EnvParseError` for the variable; unsettable, malformed and too-long inputs fail as the code does; an element that fails stops the loop with that element's text and its converter's error, after the elements before it were stored, with an array's later positions as they were and a slice's at zero; array positions past the list are never changed |
| Collections.LoadListIntoSlice | load_config.go:189-197 | a list literal whose elements all convert loads into a slice as exactly the converted values, whatever the slice held |
| Collections.LoadListIntoArray | load_config.go:192-197 | the same literal fills the first positions of a long enough array and leaves the rest |
| Collections.LoadListOverflow | load_config.go:186-188 | an array shorter than the list fails with a size overflow naming both lengths, unchanged |
| Collections.SetElementsAllSucceed | load_config.go:192-197 | when every element converts, the loop stores exactly the converted values in order |
| Loader.LoadField | load_config.go:83-116 | declarations never change; the seen set grows by the tag name, and by nothing else for a non-struct field; a scalar that fails is left as it was; a non-struct field fails only with a tag, not-found or parse error; a struct field's failure is its tag error or a nested error naming its first field |
| Loader.LoadFields | load_config.go:82-118 | declarations never change; the seen set only grows; an error needs a field, and is never the not-a-pointer error |
| Loader.LoadEnv | load_config.go:77-119 | anything but a pointer to a struct is refused with "config must be a pointer to a struct" and nothing changes; otherwise the struct keeps its declaration and the walk's error is returned |
| LoadProperties.PlainTag | load_config.go:217-223 | a tag of one token parses to `{name: n}` and records exactly `n` |
| LoadProperties.OptionalTagTokens | load_config.go:123 | "NAME;optional" splits into the name and the flag |
| LoadProperties.DefaultTagTokens | load_config.go:225-231 | "NAME;default:VALUE" splits into the name, the keyword and the value, and the keyword has its value |
| LoadProperties.UntaggedFieldUntouched | load_config.go:95-98 | an untagged non-struct field is skipped and left as it was, and no name is recorded |
| LoadProperties.MissingVariableFails | load_config.go:99-102 | a required variable that is unset or empty fails with `EnvNotFoundError` for its name, before anything is set |
| LoadProperties.OptionalTag | load_config.go:121-125 | "n;optional" parses to the name with the `optional` flag and records `n` |
| LoadProperties.OptionalDirectiveUntouched | load_config.go:103-105 | any tag whose tokens are a new name and flags including `optional` with no default, however it is spelt ("NAME;x;optional", "NAME:optional", ";NAME;;optional"), leaves a field with no value at whatever it held, with no error |
| LoadProperties.RequiredDirectiveMissing | load_config.go:99-102 | any tag whose tokens are a new name and flags with neither a default nor `optional`, however it is spelt, fails on an unset variable with `EnvNotFoundError` for its name, the field unchanged |
| LoadProperties.DefaultDirectiveApplied | load_config.go:137-139 | any tag with a new name and one `default` anywhere among its flags, e.g. "DB_USER;default:user;optional" or "PORT;optional;default:8080", and no `name` token other than the default's value: with no value in the environment a scalar is converted from the token after the first `default`, and is left as it was, with `setField`'s error, when that fails |
| LoadProperties.OptionalScalarSet | load_config.go:113-116 | an optional scalar whose variable is set loads, or fails, exactly as a required one would |
| LoadProperties.DefaultTag | load_config.go:225-231 | "n;default:v" parses to the name with default `v` |
| LoadProperties.DefaultOverridden | load_config.go:132-135 | a non-empty environment value takes precedence over the default |
| LoadProperties.ScalarLoaded | load_config.go:113-116 | a scalar whose variable is set stores exactly the converted value |
| LoadProperties.CollectionLoaded | load_config.go:106-111 | an array or slice whose variable is set is filled by the collection populator, and its error is the field's error |
| LoadProperties.SliceFills | load_config.go:189-197 | a slice field given a list whose elements all convert holds exactly the converted values |
| LoadProperties.ArrayFills | load_config.go:192-197 | an array field as long as such a list holds exactly the converted values |
| LoadProperties.ArrayOverflows | load_config.go:186-188 | an array field given a longer list fails with "array size overflow" and stays as it was |
| LoadProperties.RegisteredTypeRoundTrip | load_config.go:153-159 | after registering a converter for T, a T field loaded from a text it accepts holds exactly the converter's value |
| LoadProperties.ParseErrorCarriesRawValue | load_config.go:155-158 | a conversion failure reports the raw value and the variable name, with text "error parsing '<v>' as environment variable <name>: <cause>" |
| LoadProperties.ScalarChangesOnlyByConversion | load_config.go:99-116 | a scalar that changes does so without error, to the value `setField` gives for the text `getField` resolves from the tag |
| LoadProperties.FailFastAt | load_config.go:82-118 | a walk that fails stops at its first failing field: the fields before it load without error, that field's load from their names gives the walk's error and names, and the fields after it are exactly as they were (proved for any fail-fast fold by `WalkFailsFast`, then applied to `LoadField`) |
| LoadProperties.FirstFieldStops | load_config.go:99-102 | a struct whose first field fails without changing comes back unchanged, with that error |
| LoadProperties.CleanRun | load_config.go:82-117 | fields that each load cleanly are loaded in declaration order, each seeing the names recorded before it |
| LoadProperties.CleanNestedLoad | load_config.go:83-93 | a struct field whose tag spells a new name, and whose own fields each load cleanly in order, loads without error: its name is recorded before its fields' names, and it holds exactly their loaded contents |
| LoadProperties.OneFieldStruct | load_config.go:77-119 | a struct of one field loads as that field does |
| LoadProperties.DuplicateNameFails | load_config.go:217-221 | of two fields tagged with one name, the second fails with "duplicate tag: <name>", wrapped with its field name |
| LoadProperties.NameAlreadySeen | load_config.go:83-86 | a field whose name is already recorded fails with a tag error naming the field |
| LoadProperties.NestedTagRecordedBeforeRecursion | load_config.go:83-92 | a struct field's own tag name is recorded before its fields are walked, so a first inner field with that name fails |
| LoadProperties.NestedFailureStopsSiblings | load_config.go:88-92 | a failing nested struct, whatever its tag, ends the walk with a nested error naming its first field and ending with the inner text; later siblings are untouched |
| LoadProperties.NotAPointerRefused | load_config.go:78-80 | anything but a pointer to a struct is refused with its fixed message, and nothing changes |
| Scenarios.GoNamesValid | load_config_test.go:19-27 | the test struct's variable names are usable tag names and pairwise distinct |
| Scenarios.TestLoadEnv | load_config_test.go:52-84 | with HOST and PORT set, every field of the test struct loads: Host, Port, Default (set or not), the nested DB_HOST from its default; the optional fields are untouched; all seven names are recorded |
| Scenarios.TestLoadEnvMissingEnv | load_config_test.go:86-114 | with an empty environment, the load fails on HOST with "environment variable not found: HOST" and the struct is unchanged |
| Scenarios.TestEnvParseError | load_config_test.go:116-135 | a PARSE_ERR value the custom map type refuses fails the last field, with "error parsing '<v>' as environment variable PARSE_ERR: <Sscan's refusal>", after every other field has loaded |
| Scenarios.TestConfigStructNotAPointerError | load_config_test.go:137-149 | passing the struct by value is refused with "config must be a pointer to a struct" |
| Scenarios.TestEmbeddedStructParseError | load_config_test.go:151-171 | the refused value inside the nested struct is reported as "error loading nested struct 'ParseErr': …", and the walk stops there |
| Scenarios.TestDuplicateTagNameError | load_config_test.go:173-195 | three fields tagged with one name fail on the second, with text ending in ": duplicate tag: <name>" |
| Scenarios.IntListLiteral | load_config_test.go:200 | "[1,2,3,4,5]" is the list literal of the five texts 1 to 5 |
| Scenarios.TestSliceField | load_config_test.go:197-223 | the list literal loads into a `[]int` as exactly its values |
| Scenarios.TestArrayField | load_config_test.go:225-246 | the list literal fills an `[n]int` of the same length with exactly its values |
| Scenarios.ArrayTooShort | load_config.go:186-188 | a list longer than the array fails with "array size overflow" and the array is unchanged |

## Left out

- print.go: presentation only, with no bearing on loading.
- `os.Getenv` and `os.Clearenv`: the environment is an input map.
- `fmt.Sscan` and `slog.Level.UnmarshalText`: conversion is a parameter (`Scanner`, `Converter`). No integer, float or level parsing is modelled, including Sscan reading only the first word of a text.
- `UnmarshalEnvSlogLevel`: an opaque converter passed to `EnvTypes.Initial`.
- Reflection itself (`Kind`, `Addr`, `MakeSlice`, `Set`): replaced by the schema. `CanSet` is the per-field `settable` flag.
- Convert.SetField: stores whatever a registered converter returns. A converter returns `interface{}` (env_type.go:8), and `field.Set` at load_config.go:159 panics when that value is nil or of another type than the field. Values here are untyped, so that panic is not modelled.
- The "field is not a slice or array" error of `setIterableField`: unreachable, since the walker only calls it for arrays and slices.
- An unexported nested struct, on which `Addr().Interface()` panics: fields carry no exportedness.
- Concurrency around the global maps: the model is sequential by construction.
- Byte-level string handling: Go strings are byte strings, and here each character stands for one byte.
- Loader.LoadField: requires every tag to give each `default` a value and every array a non-zero length. Go panics on those inputs only when it reaches them, for example not when the name is already a duplicate.
- Loader.LoadFields: the same static precondition, for every field.
- Loader.LoadEnv: the same static precondition, for the struct's fields.
- Scenarios: the test's variable names are symbolic (any seven distinct tag-safe names, with `GoNames` the test's own). Sscan's refusal of the custom map type is a property required of the converters, not derived from Sscan.
- Scenarios.TestEnvParseError: uses the refusal text Sscan gives for a pointer to `goloadenv.CustomMapType`, the package declared at load_config_test.go:1. The test at load_config_test.go:127 expects "*load_config.CustomMapType", which this package does not produce, so that exact string is not claimed.
- Scenarios.TestEmbeddedStructParseError: the same package name, for the expectation at load_config_test.go:163.

=== FILE: collections.dfy ===
/**
 The collection populator of load_config.go: `parseArrayString` turns a
 bracketed literal into element strings and `setIterableField` stores the
 converted elements into a fixed-length array or a freshly sized slice.
 */
module Collections {
  import opened Wrappers
  import opened Strings
  import opened Errors
  import opened Schema
  import opened EnvTypes
  import opened Convert

  /** `parseArrayString`. Because `&&` binds tighter than `||`, a literal is
      refused only when it is shorter than two characters or lacks BOTH the
      leading `[` and the trailing `]`; the first and last characters are
      then dropped whatever they are. */
  function ParseArrayString(str: string): (r: Result<seq<string>, Cause>)
    ensures r.Failure? <==> |str| < 2 || (str[0] != '[' && str[|str| - 1] != ']')
    ensures r.Failure? ==> r.error == InvalidArrayFormat
    ensures r.Success? ==> Join(r.value, ',') == str[1..|str| - 1]
    ensures r.Success? ==> |r.value| == multiset(str[1..|str| - 1])[','] + 1
    ensures r.Success? ==> forall i :: 0 <= i < |r.value| ==> ',' !in r.value[i]
  {
    if |str| < 2 || (str[0] != '[' && str[|str| - 1] != ']') then Failure(InvalidArrayFormat)
    else
      var inner := str[1..|str| - 1];
      JoinSplit(inner, ',');
      SplitCount(inner, ',');
      Success(Split(inner, ','))
  }

  /** Round trip: comma-free elements written as "[e1,e2,...]" parse back to themselves. */
  lemma ParseBracketed(parts: seq<string>)
    requires |parts| >= 1
    requires forall i :: 0 <= i < |parts| ==> ',' !in parts[i]
    ensures ParseArrayString("[" + Join(parts, ',') + "]") == Success(parts)
  {
    var str := "[" + Join(parts, ',') + "]";
    assert str[1..|str| - 1] == Join(parts, ',');
    SplitJoin(parts, ',');
  }

  /** One bracket is enough: "[" followed by anything non-empty is accepted and
      its last character, whatever it is, is dropped. */
  lemma OneBracketSuffices(s: string)
    requires s != ""
    ensures ParseArrayString("[" + s) == Success(Split(s[..|s| - 1], ','))
    ensures ParseArrayString(s + "]") == Success(Split(s[1..], ','))
  {
    assert ("[" + s)[1..|s|] == s[..|s| - 1];
    assert (s + "]")[1..|s|] == s[1..];
  }

  /** The contents of a collection after loading, and the error that stopped it, if any. */
  datatype Filled = Filled(elems: seq<Value>, err: Option<LoadError>)

  /** The element loop of `setIterableField`, from index `i` on: each element
      string goes through `setField`; the first failure stops the loop. */
  function SetElements(elems: seq<Value>, parts: seq<string>, i: nat, elemType: TypeId, env: string,
                       reg: Registry, scan: Scanner): (r: Filled)
    requires i <= |parts| <= |elems|
    ensures |r.elems| == |elems|
    ensures forall j :: 0 <= j < i ==> r.elems[j] == elems[j]
    ensures forall j :: |parts| <= j < |elems| ==> r.elems[j] == elems[j]
    ensures r.err.None? ==>
              forall j :: i <= j < |parts| ==> SetField(elemType, parts[j], env, true, reg, scan) == Success(r.elems[j])
    // the loop stops at the first element that fails, with that element's text,
    // after storing the ones before it and leaving the rest
    ensures r.err.Some? ==>
              exists j :: && i <= j < |parts|
                          && (forall l :: i <= l < j ==> SetField(elemType, parts[l], env, true, reg, scan) == Success(r.elems[l]))
                          && SetField(elemType, parts[j], env, true, reg, scan) == Failure(r.err.value)
                          && r.elems[j..] == elems[j..]
    decreases |parts| - i
  {
    if i == |parts| then Filled(elems, None)
    else
      match SetField(elemType, parts[i], env, true, reg, scan)
      case Failure(e) => Filled(elems, Some(e))
      case Success(v) =>
        var r := SetElements(elems[i := v], parts, i + 1, elemType, env, reg, scan);
        assert r.err.Some? ==>
                 exists j :: && i <= j < |parts|
                             && (forall l :: i <= l < j ==> SetField(elemType, parts[l], env, true, reg, scan) == Success(r.elems[l]))
                             && SetField(elemType, parts[j], env, true, reg, scan) == Failure(r.err.value)
                             && r.elems[j..] == elems[j..] by {
          if r.err.Some? {
            var j :| && i + 1 <= j < |parts|
                     && (forall l :: i + 1 <= l < j ==> SetField(elemType, parts[l], env, true, reg, scan) == Success(r.elems[l]))
                     && SetField(elemType, parts[j], env, true, reg, scan) == Failure(r.err.value)
                     && r.elems[j..] == elems[i := v][j..];
            assert r.elems[i] == v;
            assert elems[i := v][j..] == elems[j..];
          }
        }
        r
  }

  /** The element loop stopped at element `j`: the elements before it were
      stored, element `j` failed with the loop's error, and from `j` on an array
      keeps its old contents while a slice keeps the zero values it was made with. */
  predicate StoppedAt(r: Filled, isSlice: bool, elems: seq<Value>, parts: seq<string>, j: int,
                      elemType: TypeId, env: string, reg: Registry, scan: Scanner)
  {
    && 0 <= j < |parts| <= |r.elems| && r.err.Some?
    && (forall l :: 0 <= l < j ==> SetField(elemType, parts[l], env, true, reg, scan) == Success(r.elems[l]))
    && SetField(elemType, parts[j], env, true, reg, scan) == Failure(r.err.value)
    && (!isSlice ==> |r.elems| == |elems| && r.elems[j..] == elems[j..])
    && (isSlice ==> forall l :: j <= l < |parts| ==> r.elems[l] == Zero(elemType))
  }

  /** The storing half of `setIterableField`, once the list has parsed and fits:
      a slice is remade with one zero element per entry, an array is filled in
      place, and the element loop runs from the first entry. */
  function StoreList(isSlice: bool, elemType: TypeId, elems: seq<Value>, parts: seq<string>, env: string,
                     reg: Registry, scan: Scanner): (r: Filled)
    requires isSlice || |parts| <= |elems|
    ensures |r.elems| == if isSlice then |parts| else |elems|
    ensures !isSlice ==> forall j :: |parts| <= j < |elems| ==> r.elems[j] == elems[j]
    ensures r.err.None? ==> forall j :: 0 <= j < |parts| ==> SetField(elemType, parts[j], env, true, reg, scan) == Success(r.elems[j])
    ensures r.err.Some? ==> r.err.value.Parse? && r.err.value.env == env
    ensures r.err.Some? ==> exists j :: StoppedAt(r, isSlice, elems, parts, j, elemType, env, reg, scan)
  {
    var start := if isSlice then seq(|parts|, _ => Zero(elemType)) else elems;
    var r := SetElements(start, parts, 0, elemType, env, reg, scan);
    assert r.err.Some? ==> exists j :: StoppedAt(r, isSlice, elems, parts, j, elemType, env, reg, scan) by {
      if r.err.Some? {
        var j :| && 0 <= j < |parts|
                 && (forall l :: 0 <= l < j ==> SetField(elemType, parts[l], env, true, reg, scan) == Success(r.elems[l]))
                 && SetField(elemType, parts[j], env, true, reg, scan) == Failure(r.err.value)
                 && r.elems[j..] == start[j..];
        if isSlice {
          forall l | j <= l < |parts|
            ensures r.elems[l] == Zero(elemType)
          {
            assert r.elems[l] == r.elems[j..][l - j] == start[l];
          }
        }
        assert StoppedAt(r, isSlice, elems, parts, j, elemType, env, reg, scan);
      }
    }
    r
  }

  /** The inputs on which `setIterableField` does not index a zero-length array. */
  predicate CanFill(isSlice: bool, elems: seq<Value>, str: string, settable: bool) {
    isSlice || |elems| > 0 || !settable || ParseArrayString(str).Failure?
  }

  /** `setIterableField` for an array (`isSlice` false, length |elems|) or a slice. */
  function SetIterableField(isSlice: bool, elemType: TypeId, elems: seq<Value>, str: string, env: string,
                            settable: bool, reg: Registry, scan: Scanner): (r: Filled)
    requires CanFill(isSlice, elems, str, settable)
    // an array keeps its length; a slice that loads gets one element per list entry
    ensures !isSlice ==> |r.elems| == |elems|
    ensures r.err.None? ==> settable && ParseArrayString(str).Success?
    ensures isSlice && r.err.None? ==> |r.elems| == |ParseArrayString(str).value|
    // every error is an EnvParseError naming the variable
    ensures r.err.Some? ==> r.err.value.Parse? && r.err.value.env == env
    ensures !settable ==> r == Filled(elems, Some(Parse(str, env, CannotSet)))
    ensures settable && ParseArrayString(str).Failure? ==> r == Filled(elems, Some(Parse(str, env, InvalidArrayFormat)))
    // an array refuses more elements than it has
    ensures settable && !isSlice && ParseArrayString(str).Success? && |ParseArrayString(str).value| > |elems| ==>
              r == Filled(elems, Some(Parse(str, env, SizeOverflow(|elems|, |ParseArrayString(str).value|))))
    ensures r.err.None? ==>
              var parts := ParseArrayString(str).value;
              && forall j :: 0 <= j < |parts| ==> SetField(elemType, parts[j], env, true, reg, scan) == Success(r.elems[j])
    // array positions past the list are left as they were, whatever happens
    ensures !isSlice && settable && ParseArrayString(str).Success? ==>
              forall j :: |ParseArrayString(str).value| <= j < |elems| ==> r.elems[j] == elems[j]
    // a slice is remade with one element per list entry before any is converted
    ensures isSlice && settable && ParseArrayString(str).Success? ==> |r.elems| == |ParseArrayString(str).value|
    // an element that fails stops the loop with its own text: the elements before
    // it are stored, an array keeps its old contents from there on, and a slice
    // keeps the zero values it was made with
    ensures settable && ParseArrayString(str).Success? && r.err.Some? &&
            (isSlice || |ParseArrayString(str).value| <= |elems|) ==>
              exists j :: StoppedAt(r, isSlice, elems, ParseArrayString(str).value, j, elemType, env, reg, scan)
  {
    if !settable then Filled(elems, Some(Parse(str, env, CannotSet)))
    else
      var maxLength := if isSlice then 0 else |elems|;
      match ParseArrayString(str)
      case Failure(c) => Filled(elems, Some(Parse(str, env, c)))
      case Success(parts) =>
        if maxLength > 0 && |parts| > maxLength then
          Filled(elems, Some(Parse(str, env, SizeOverflow(maxLength, |parts|))))
        else
          StoreList(isSlice, elemType, elems, parts, env, reg, scan)
  }

  /** A literal "[e1,...,em]" whose elements all convert loads exactly those values into a slice. */
  lemma LoadListIntoSlice(parts: seq<string>, values: seq<Value>, elemType: TypeId, elems: seq<Value>,
                          env: string, reg: Registry, scan: Scanner)
    requires |parts| >= 1 && |parts| == |values|
    requires forall i :: 0 <= i < |parts| ==> ',' !in parts[i]
    requires forall i :: 0 <= i < |parts| ==> SetField(elemType, parts[i], env, true, reg, scan) == Success(values[i])
    ensures SetIterableField(true, elemType, elems, "[" + Join(parts, ',') + "]", env, true, reg, scan)
         == Filled(values, None)
  {
    var str := "[" + Join(parts, ',') + "]";
    ParseBracketed(parts);
    var start := seq(|parts|, _ => Zero(elemType));
    assert SetIterableField(true, elemType, elems, str, env, true, reg, scan)
        == SetElements(start, parts, 0, elemType, env, reg, scan);
    SetElementsAllSucceed(start, parts, 0, values, elemType, env, reg, scan);
    FillFromStart(start, values);
    assert start[|values|..] == [];
  }

  /** The same literal fills the first m positions of an array of length at least m,
      leaving the others as they were. */
  lemma LoadListIntoArray(parts: seq<string>, values: seq<Value>, elemType: TypeId, elems: seq<Value>,
                          env: string, reg: Registry, scan: Scanner)
    requires |parts| >= 1 && |parts| == |values| && |elems| >= |parts|
    requires forall i :: 0 <= i < |parts| ==> ',' !in parts[i]
    requires forall i :: 0 <= i < |parts| ==> SetField(elemType, parts[i], env, true, reg, scan) == Success(values[i])
    ensures SetIterableField(false, elemType, elems, "[" + Join(parts, ',') + "]", env, true, reg, scan)
         == Filled(values + elems[|parts|..], None)
  {
    var str := "[" + Join(parts, ',') + "]";
    ParseBracketed(parts);
    assert SetIterableField(false, elemType, elems, str, env, true, reg, scan)
        == SetElements(elems, parts, 0, elemType, env, reg, scan);
    SetElementsAllSucceed(elems, parts, 0, values, elemType, env, reg, scan);
    FillFromStart(elems, values);
  }

  lemma FillFromStart<T>(elems: seq<T>, values: seq<T>)
    requires |values| <= |elems|
    ensures elems[..0] + values[0..] + elems[|values|..] == values + elems[|values|..]
  {
    assert elems[..0] == [] && values[0..] == values;
  }

  /** An array shorter than the literal reports "array size overflow, expected n, got m". */
  lemma LoadListOverflow(parts: seq<string>, elemType: TypeId, elems: seq<Value>,
                         env: string, reg: Registry, scan: Scanner)
    requires 0 < |elems| < |parts|
    requires forall i :: 0 <= i < |parts| ==> ',' !in parts[i]
    ensures var str := "[" + Join(parts, ',') + "]";
            SetIterableField(false, elemType, elems, str, env, true, reg, scan)
            == Filled(elems, Some(Parse(str, env, SizeOverflow(|elems|, |parts|))))
  {
    ParseBracketed(parts);
  }

  /** When every element converts, the loop stores exactly the converted values. */
  lemma {:induction false} SetElementsAllSucceed(elems: seq<Value>, parts: seq<string>, i: nat, values: seq<Value>,
                              elemType: TypeId, env: string, reg: Registry, scan: Scanner)
    requires i <= |parts| <= |elems| && |parts| == |values|
    requires forall j :: i <= j < |parts| ==> SetField(elemType, parts[j], env, true, reg, scan) == Success(values[j])
    ensures var r := SetElements(elems, parts, i, elemType, env, reg, scan);
            r.err.None? && r.elems == elems[..i] + values[i..] + elems[|parts|..]
    decreases |parts| - i
  {
    if i < |parts| {
      var e := elems[i := values[i]];
      SetElementsAllSucceed(e, parts, i + 1, values, elemType, env, reg, scan);
      FillStep(elems, values, i, |parts|);
    }
  }

  /** Storing `values[i]` at `i` moves the boundary between new and old contents one step. */
  lemma FillStep<T>(elems: seq<T>, values: seq<T>, i: nat, k: nat)
    requires i < k <= |elems| && k == |values|
    ensures var e := elems[i := values[i]];
            e[..i + 1] + values[i + 1..] + e[k..] == elems[..i] + values[i..] + elems[k..]
  {
    var e := elems[i := values[i]];
    assert e[..i + 1] == elems[..i] + [values[i]];
    assert values[i..] == [values[i]] + values[i + 1..];
    assert e[k..] == elems[k..];
  }
}

=== FILE: convert.dfy ===
/**
 Single-value conversion (`setField` in load_config.go): a converter
 registered for the field's type wins; otherwise the generic `fmt.Sscan`
 fallback, passed in as `scan`, is used. Failures become `EnvParseError`s.
 */
module Convert {
  import opened Wrappers
  import opened Errors
  import opened Schema
  import opened EnvTypes

  /** The `fmt.Sscan` fallback: what scanning text into a value of a type yields. */
  type Scanner = (TypeId, string) -> Result<Value, string>

  /** The converter `setField` applies to a field of type `t`. */
  function ConverterFor(reg: Registry, scan: Scanner, t: TypeId): (c: Converter)
    ensures t in reg ==> c == reg[t]
    ensures t !in reg ==> forall s :: c(s) == scan(t, s)
  {
    if t in reg then reg[t] else s => scan(t, s)
  }

  /** `setField` for a field of type `t`, raw value `str`, environment variable `env`. */
  function SetField(t: TypeId, str: string, env: string, settable: bool, reg: Registry, scan: Scanner)
    : (r: Result<Value, LoadError>)
    ensures var c := ConverterFor(reg, scan, t)(str);
            && (r.Success? <==> settable && c.Success?)
            && (r.Success? ==> r.value == c.value)
            && (settable && c.Failure? ==> r.error == Parse(str, env, Conversion(c.error)))
    ensures !settable ==> r == Failure(Parse(str, env, CannotSet))
    ensures r.Failure? ==> r.error.Parse? && r.error.value == str && r.error.env == env
  {
    if !settable then Failure(Parse(str, env, CannotSet))
    else
      match Lookup(reg, t)
      case Some(unmarshal) =>
        (match unmarshal(str)
         case Success(v) => Success(v)
         case Failure(e) => Failure(Parse(str, env, Conversion(e))))
      case None =>
        (match scan(t, str)
         case Success(v) => Success(v)
         case Failure(e) => Failure(Parse(str, env, Conversion(e))))
  }

  /** A registered converter takes precedence: the fallback scan is never consulted. */
  lemma RegisteredConverterWins(reg: Registry, t: TypeId, unmarshal: Converter, str: string, env: string,
                                scan1: Scanner, scan2: Scanner)
    ensures SetField(t, str, env, true, Register(reg, t, unmarshal), scan1)
         == SetField(t, str, env, true, Register(reg, t, unmarshal), scan2)
    ensures unmarshal(str).Success? ==>
              SetField(t, str, env, true, Register(reg, t, unmarshal), scan1) == Success(unmarshal(str).value)
  {
  }

  /** Registering a converter for one type changes nothing for fields of another type. */
  lemma RegisterLeavesOtherTypes(reg: Registry, t: TypeId, u: TypeId, unmarshal: Converter,
                                 str: string, env: string, settable: bool, scan: Scanner)
    requires t != u
    ensures SetField(u, str, env, settable, Register(reg, t, unmarshal), scan)
         == SetField(u, str, env, settable, reg, scan)
  {
  }
}

=== FILE: env_types.dfy ===
/**
 The registry of custom converters (env_type.go): a map from a field's type
 to a function turning the raw string into a value or an error message.
 */
module EnvTypes {
  import opened Wrappers
  import opened Schema

  /** `EnvType`: converts a raw string, or fails with an error text. */
  type Converter = string -> Result<Value, string>

  type Registry = map<TypeId, Converter>

  const SlogLevel: TypeId := TypeId("log/slog", "Level")

  /** The registry before any registration: only `slog.Level`, converted by
      `UnmarshalEnvSlogLevel` (passed in, as level parsing is not modelled). */
  function Initial(unmarshalSlogLevel: Converter): (r: Registry)
    ensures r.Keys == {SlogLevel}
    ensures r[SlogLevel] == unmarshalSlogLevel
  {
    map[SlogLevel := unmarshalSlogLevel]
  }

  /** `RegisterEnvType[T]`: installs T's `UnmarshalEnv`, replacing any earlier entry for T. */
  function Register(reg: Registry, t: TypeId, unmarshalEnv: Converter): (r: Registry)
    ensures r.Keys == reg.Keys + {t}
    ensures r[t] == unmarshalEnv
    ensures forall u :: u in reg && u != t ==> r[u] == reg[u]
  {
    reg[t := unmarshalEnv]
  }

  /** The lookup `setField` performs. */
  function Lookup(reg: Registry, t: TypeId): (r: Option<Converter>)
    ensures r.Some? <==> t in reg
    ensures r.Some? ==> r.value == reg[t]
  {
    if t in reg then Some(reg[t]) else None
  }

  /** Registering twice keeps only the second converter. */
  lemma RegisterOverwrites(reg: Registry, t: TypeId, first: Converter, second: Converter)
    ensures Register(Register(reg, t, first), t, second) == Register(reg, t, second)
  {
  }

  /** Registrations of different types do not interfere, whatever their order. */
  lemma RegisterCommutes(reg: Registry, t: TypeId, u: TypeId, a: Converter, b: Converter)
    requires t != u
    ensures Register(Register(reg, t, a), u, b) == Register(Register(reg, u, b), t, a)
  {
  }
}

=== FILE: errors.dfy ===
/**
 The errors the loader returns and the text each one prints. Go builds these
 with `errors.New`, `fmt.Errorf` and the two error structs of load_config.go;
 here each is a constructor and `Message` is its `Error()` string.
 */
module Errors {
  import opened Strings

  /** The `err` carried inside an `EnvParseError`. */
  datatype Cause =
    | CannotSet                            // the field is not settable
    | InvalidArrayFormat                   // the value is not a bracketed list
    | SizeOverflow(expected: nat, got: nat) // more elements than the array holds
    | Conversion(message: string)          // a converter or the scan fallback failed

  /** The error a tag parse returns. */
  datatype TagError = DuplicateTag(tag: string)

  datatype LoadError =
    | NotStructPointer                            // LoadEnv's argument check
    | EnvNotFound(env: string)                    // `EnvNotFoundError`
    | Parse(value: string, env: string, cause: Cause) // `EnvParseError`
    | BadTag(field: string, tagError: TagError)   // a tag error wrapped with the field's name
    | NestedStruct(innerField: string, inner: LoadError) // a nested load error wrapped

  function CauseMessage(c: Cause): string {
    match c
    case CannotSet => "field cannot be set"
    case InvalidArrayFormat => "invalid array format"
    case SizeOverflow(n, m) =>
      "array size overflow, expected " + NatToString(n) + ", got " + NatToString(m)
    case Conversion(msg) => msg
  }

  function TagMessage(e: TagError): string {
    "duplicate tag: " + e.tag
  }

  /** `Error()`. Every wrapping keeps the wrapped text, verbatim, at its end. */
  function Message(e: LoadError): (r: string)
    ensures r != ""
    ensures e.EnvNotFound? ==> EndsWith(r, e.env)
    ensures e.Parse? ==> EndsWith(r, CauseMessage(e.cause))
    ensures e.BadTag? ==> EndsWith(r, TagMessage(e.tagError))
    ensures e.NestedStruct? ==> EndsWith(r, Message(e.inner))
  {
    match e
    case NotStructPointer => "config must be a pointer to a struct"
    case EnvNotFound(n) => "environment variable not found: " + n
    case Parse(v, n, c) =>
      "error parsing '" + v + "' as environment variable " + n + ": " + CauseMessage(c)
    case BadTag(f, t) => "error getting tags for field: '" + f + "': " + TagMessage(t)
    case NestedStruct(f, inner) => "error loading nested struct '" + f + "': " + Message(inner)
  }

  /** A duplicate name always surfaces as "...: duplicate tag: <name>". */
  lemma DuplicateTagMessage(field: string, name: string)
    ensures EndsWith(Message(BadTag(field, DuplicateTag(name))), ": duplicate tag: " + name)
  {
    var m := Message(BadTag(field, DuplicateTag(name)));
    var prefix := "error getting tags for field: '" + field + "'";
    assert m == prefix + (": duplicate tag: " + name);
  }

  /** A nested failure keeps the inner error's text verbatim at the end of its own. */
  lemma NestedMessageEmbedsCause(field: string, inner: LoadError)
    ensures EndsWith(Message(NestedStruct(field, inner)), Message(inner))
    ensures Message(NestedStruct(field, inner))[..|"error loading nested struct '"|]
         == "error loading nested struct '"
  {
    var m := Message(NestedStruct(field, inner));
    assert m == ("error loading nested struct '" + field + "': ") + Message(inner);
  }

  /** The four pieces of a concatenation can be cut back out of it. */
  lemma FourPieces(h: string, a: string, g: string, b: string)
    ensures var t := h + a + g + b;
            && t[..|h|] == h
            && t[|h|..|h| + |a|] == a
            && t[|h| + |a|..|h| + |a| + |g|] == g
            && t[|h| + |a| + |g|..] == b
  {
  }

  /** The overflow text reads back the two counts it reports. */
  lemma OverflowMessage(n: nat, m: nat)
    ensures var text := CauseMessage(SizeOverflow(n, m));
            var head := "array size overflow, expected ";
            var mid := |head| + |NatToString(n)|;
            && text[..|head|] == head
            && DecimalValue(text[|head|..mid]) == n
            && text[mid..mid + 6] == ", got "
            && DecimalValue(text[mid + 6..]) == m
  {
    FourPieces("array size overflow, expected ", NatToString(n), ", got ", NatToString(m));
    DecimalRoundTrip(n);
    DecimalRoundTrip(m);
  }
}

=== FILE: load_properties.dfy ===
/**
 Properties of the walker that relate several steps: how tags, resolution,
 conversion and the seen set combine when `LoadEnv` processes a field or a
 sequence of fields.
 */
module LoadProperties {
  import opened Wrappers
  import opened Strings
  import opened Errors
  import opened Schema
  import opened EnvTypes
  import opened Tags
  import opened Resolve
  import opened Convert
  import opened Loader
  import Collections

  /** The keywords are tokens: they contain no separator. */
  lemma KeywordsAreTokens()
    ensures IsToken("optional") && IsToken("default")
  {
  }

  /** The tag text "NAME" is the directive with just a name. */
  lemma PlainTag(n: string, seen: set<string>)
    requires IsToken(n) && n !in seen
    ensures Render(Directive(n, None, [])) == n
    ensures CanParse(Tokens(n), seen)
    ensures GetTags(n, seen) == TagParse(seen + {n}, Success(map["name" := n]))
  {
    var d := Directive(n, None, []);
    PlainRender(n);
    RenderRoundTrip(d, seen);
    PlainMeaning(n);
  }

  lemma PlainRender(n: string)
    ensures Render(Directive(n, None, [])) == n
  {
    var d := Directive(n, None, []);
    assert DirectiveTokens(d) == [n];
    assert DirectiveSeparators(d) == [];
  }

  lemma PlainMeaning(n: string)
    ensures Meaning(Directive(n, None, [])) == map["name" := n]
  {
  }

  lemma FlagTagTokens(n: string, flag: string)
    requires IsToken(n) && IsToken(flag)
    ensures Tokens(n + [';'] + flag) == [n, flag]
  {
    PairFields(n, ';', flag);
  }

  /** The tag text "NAME;optional" splits into the name and the flag. */
  lemma OptionalTagTokens(n: string)
    requires IsToken(n)
    ensures Tokens(n + ";optional") == [n, "optional"]
    ensures DefaultsHaveValues(Tokens(n + ";optional"), 1, false)
  {
    KeywordsAreTokens();
    FlagTagTokens(n, "optional");
    assert n + ";optional" == n + [';'] + "optional";
  }

  /** The tag text "NAME;default:VALUE" splits into the name, the keyword and the value. */
  lemma DefaultTagTokens(n: string, v: string)
    requires IsToken(n) && IsToken(v)
    ensures Tokens(n + ";default:" + v) == [n, "default", v]
    ensures DefaultsHaveValues(Tokens(n + ";default:" + v), 1, false)
  {
    var rest := "default" + [':'] + v;
    DefaultTagText(n, v);
    DefaultValueFields(v);
    FieldsAroundSeparator(n, ';', rest, SplitTags);
    FieldsOfToken(n, SplitTags);
    DefaultThenValue(n, v);
  }

  lemma DefaultTagText(n: string, v: string)
    ensures n + ";default:" + v == n + [';'] + ("default" + [':'] + v)
  {
    assert ";default:" == [';'] + "default" + [':'];
  }

  lemma DefaultValueFields(v: string)
    requires IsToken(v)
    ensures Fields("default" + [':'] + v, SplitTags) == ["default", v]
  {
    KeywordsAreTokens();
    PairFields("default", ':', v);
  }

  lemma DefaultThenValue(n: string, v: string)
    ensures DefaultsHaveValues([n, "default", v], 1, false)
  {
    var ts := [n, "default", v];
    assert DefaultsHaveValues(ts, 3, true);
  }

  /** An untagged field that is not a struct is skipped and left as it was. */
  lemma UntaggedFieldUntouched(f: Field, seen: set<string>, env: Env, reg: Registry, scan: Scanner)
    requires FieldWellFormed(f) && !f.kind.Nested? && Tokens(f.tag) == []
    ensures LoadField(f, seen, env, reg, scan) == FieldLoad(f, seen, None)
  {
  }

  /** A required variable that is unset or empty fails with its name, before anything is set. */
  lemma MissingVariableFails(f: Field, n: string, seen: set<string>, env: Env, reg: Registry, scan: Scanner)
    requires FieldWellFormed(f) && !f.kind.Nested?
    requires f.tag == n && IsToken(n) && n !in seen && EnvValue(env, n) == ""
    ensures LoadField(f, seen, env, reg, scan) == FieldLoad(f, seen + {n}, Some(EnvNotFound(n)))
  {
    PlainTag(n, seen);
    ResolveDirective(Directive(n, None, []), env);
  }

  /** A directive with one flag and no default renders as "name;flag". */
  lemma FlagRender(n: string, flag: string)
    ensures Render(Directive(n, None, [flag])) == n + [';'] + flag
  {
    var d := Directive(n, None, [flag]);
    assert DirectiveTokens(d) == [n, flag];
    assert DirectiveSeparators(d) == [';'];
    assert [n, flag][1..] == [flag] && [';'][1..] == [];
    assert Interleave([n, flag], [';']) == n + [';'] + Interleave([flag], []);
  }

  /** The tag "n;optional" parses to directive `n` with flag "optional". */
  lemma OptionalTag(n: string, seen: set<string>)
    requires IsToken(n) && n !in seen
    ensures ValidDirective(Directive(n, None, ["optional"]))
    ensures Render(Directive(n, None, ["optional"])) == n + ";optional"
    ensures CanParse(Tokens(n + ";optional"), seen)
    ensures GetTags(n + ";optional", seen) == TagParse(seen + {n}, Success(Meaning(Directive(n, None, ["optional"]))))
  {
    FlagRender(n, "optional");
    assert n + [';'] + "optional" == n + ";optional";
    KeywordsAreTokens();
    RenderRoundTrip(Directive(n, None, ["optional"]), seen);
  }

  /** An optional field with no value stays at whatever it held, with no error. */
  lemma OptionalFieldUntouched(f: Field, n: string, seen: set<string>, env: Env, reg: Registry, scan: Scanner)
    requires FieldWellFormed(f) && !f.kind.Nested?
    requires f.tag == n + ";optional" && IsToken(n) && n !in seen && EnvValue(env, n) == ""
    ensures LoadField(f, seen, env, reg, scan) == FieldLoad(f, seen + {n}, None)
  {
    OptionalTag(n, seen);
    ResolveDirective(Directive(n, None, ["optional"]), env);
  }

  /** Any tag whose tokens are a name and flags including `optional`, however
      it is spelt ("NAME;x;optional", "NAME:optional", ";NAME;;optional"): with
      no value in the environment the field stays at whatever it held, with no
      error. */
  lemma OptionalDirectiveUntouched(f: Field, d: Directive, seen: set<string>, env: Env, reg: Registry, scan: Scanner)
    requires FieldWellFormed(f) && !f.kind.Nested?
    requires ValidDirective(d) && Tokens(f.tag) == DirectiveTokens(d) && d.name !in seen
    requires d.default.None? && "optional" in d.flags && EnvValue(env, d.name) == ""
    ensures LoadField(f, seen, env, reg, scan) == FieldLoad(f, seen + {d.name}, None)
  {
    DirectiveTokensParse(d, seen);
    ResolveDirective(d, env);
    assert Get(Meaning(d), "name") == d.name;
  }

  /** Any tag whose tokens are a name and flags, none of them `optional`, however
      it is spelt: with no value in the environment the field fails with the
      variable's name and stays as it was. */
  lemma RequiredDirectiveMissing(f: Field, d: Directive, seen: set<string>, env: Env, reg: Registry, scan: Scanner)
    requires FieldWellFormed(f) && !f.kind.Nested?
    requires ValidDirective(d) && Tokens(f.tag) == DirectiveTokens(d) && d.name !in seen
    requires d.default.None? && "optional" !in d.flags && EnvValue(env, d.name) == ""
    ensures LoadField(f, seen, env, reg, scan) == FieldLoad(f, seen + {d.name}, Some(EnvNotFound(d.name)))
  {
    DirectiveTokensParse(d, seen);
    ResolveDirective(d, env);
    assert Get(Meaning(d), "name") == d.name;
  }

  /** Any tag with one default, wherever it stands among the flags
      ("DB_USER;default:user;optional", "PORT;optional;default:8080"): with no
      value in the environment a scalar is converted from the token after the
      `default`, and keeps its value, with the conversion's error, when that fails. */
  lemma DefaultDirectiveApplied(f: Field, seen: set<string>, env: Env, reg: Registry, scan: Scanner)
    requires FieldWellFormed(f) && f.kind.Scalar?
    requires var ts := Tokens(f.tag);
             && |ts| > 0 && ts[0] !in seen
             && FirstDefault(ts, 1) + 1 < |ts| && FirstDefault(ts, FirstDefault(ts, 1) + 2) == |ts|
             && (forall l :: 1 <= l < |ts| && l != FirstDefault(ts, 1) + 1 ==> ts[l] != "name")
             && EnvValue(env, ts[0]) == ""
    ensures var ts := Tokens(f.tag);
            var v := ts[FirstDefault(ts, 1) + 1];
            LoadField(f, seen, env, reg, scan)
            == match SetField(f.kind.typeId, v, ts[0], f.settable, reg, scan)
               case Success(x) => FieldLoad(f.(kind := Scalar(f.kind.typeId, x)), seen + {ts[0]}, None)
               case Failure(e) => FieldLoad(f, seen + {ts[0]}, Some(e))
  {
    var ts := Tokens(f.tag);
    DefaultTagParse(ts, seen);
    var p := GetTags(f.tag, seen);
    ScalarFromTags(f, seen, env, reg, scan, p.seen, p.result.value);
  }

  /** A scalar whose tag parses to a name whose variable resolves to a non-empty
      string is set from that string. */
  lemma ScalarFromTags(f: Field, seen: set<string>, env: Env, reg: Registry, scan: Scanner,
                       seen': set<string>, tags: Directives)
    requires FieldWellFormed(f) && f.kind.Scalar?
    requires GetTags(f.tag, seen) == TagParse(seen', Success(tags))
    requires Get(tags, "name") != "" && GetField(tags, env).Success? && GetField(tags, env).value != ""
    ensures var v := GetField(tags, env).value;
            LoadField(f, seen, env, reg, scan)
            == match SetField(f.kind.typeId, v, Get(tags, "name"), f.settable, reg, scan)
               case Success(x) => FieldLoad(f.(kind := Scalar(f.kind.typeId, x)), seen', None)
               case Failure(e) => FieldLoad(f, seen', Some(e))
  {
  }

  /** An optional scalar whose variable is set loads exactly as a required one would. */
  lemma OptionalScalarSet(f: Field, n: string, s: string, seen: set<string>, env: Env, reg: Registry, scan: Scanner)
    requires f.kind.Scalar? && f.settable
    requires f.tag == n + ";optional" && IsToken(n) && n !in seen
    requires EnvValue(env, n) == s && s != ""
    ensures FieldWellFormed(f)
    ensures var c := ConverterFor(reg, scan, f.kind.typeId)(s);
            LoadField(f, seen, env, reg, scan)
            == if c.Success? then FieldLoad(f.(kind := Scalar(f.kind.typeId, c.value)), seen + {n}, None)
               else FieldLoad(f, seen + {n}, Some(Parse(s, n, Conversion(c.error))))
  {
    OptionalTagTokens(n);
    OptionalTag(n, seen);
    ResolveDirective(Directive(n, None, ["optional"]), env);
  }

  /** The tag "n;default:v" parses to directive `n` with default `v`. */
  lemma DefaultTag(n: string, v: string, seen: set<string>)
    requires IsToken(n) && IsToken(v) && n !in seen
    ensures ValidDirective(Directive(n, Some(v), []))
    ensures CanParse(Tokens(n + ";default:" + v), seen)
    ensures GetTags(n + ";default:" + v, seen) == TagParse(seen + {n}, Success(Meaning(Directive(n, Some(v), []))))
  {
    DefaultRender(n, v);
    assert n + [';'] + "default" + [':'] + v == n + ";default:" + v;
    KeywordsAreTokens();
    RenderRoundTrip(Directive(n, Some(v), []), seen);
  }

  /** A directive with a default and no flags renders as "name;default:value". */
  lemma DefaultRender(n: string, v: string)
    ensures Render(Directive(n, Some(v), [])) == n + [';'] + "default" + [':'] + v
  {
    var d := Directive(n, Some(v), []);
    var ts, ss := [n, "default", v], [';', ':'];
    assert DirectiveTokens(d) == ts && DirectiveSeparators(d) == ss;
    assert ts[1..] == ["default", v] && ss[1..] == [':'];
    assert ["default", v][1..] == [v] && [':'][1..] == [];
    assert Interleave(["default", v], [':']) == "default" + [':'] + Interleave([v], []);
  }

  /** With no value in the environment, a scalar takes the converted default. */
  lemma DefaultApplied(f: Field, n: string, v: string, seen: set<string>, env: Env, reg: Registry, scan: Scanner)
    requires f.kind.Scalar? && f.settable
    requires f.tag == n + ";default:" + v && IsToken(n) && IsToken(v) && n !in seen && EnvValue(env, n) == ""
    requires ConverterFor(reg, scan, f.kind.typeId)(v).Success?
    ensures FieldWellFormed(f)
    ensures LoadField(f, seen, env, reg, scan)
         == FieldLoad(f.(kind := Scalar(f.kind.typeId, ConverterFor(reg, scan, f.kind.typeId)(v).value)),
                      seen + {n}, None)
  {
    DefaultTag(n, v, seen);
    ResolveDirective(Directive(n, Some(v), []), env);
  }

  /** A value in the environment takes precedence over the tag's default. */
  lemma DefaultOverridden(f: Field, n: string, v: string, s: string, seen: set<string>, env: Env,
                          reg: Registry, scan: Scanner)
    requires f.kind.Scalar? && f.settable
    requires f.tag == n + ";default:" + v && IsToken(n) && IsToken(v) && n !in seen
    requires EnvValue(env, n) == s && s != ""
    requires ConverterFor(reg, scan, f.kind.typeId)(s).Success?
    ensures FieldWellFormed(f)
    ensures LoadField(f, seen, env, reg, scan)
         == FieldLoad(f.(kind := Scalar(f.kind.typeId, ConverterFor(reg, scan, f.kind.typeId)(s).value)),
                      seen + {n}, None)
  {
    DefaultTag(n, v, seen);
    ResolveDirective(Directive(n, Some(v), []), env);
  }

  /** A scalar whose variable is set stores the converted value. */
  lemma ScalarLoaded(f: Field, n: string, s: string, seen: set<string>, env: Env, reg: Registry, scan: Scanner)
    requires f.kind.Scalar? && f.settable
    requires f.tag == n && IsToken(n) && n !in seen
    requires EnvValue(env, n) == s && s != ""
    requires ConverterFor(reg, scan, f.kind.typeId)(s).Success?
    ensures FieldWellFormed(f)
    ensures LoadField(f, seen, env, reg, scan)
         == FieldLoad(f.(kind := Scalar(f.kind.typeId, ConverterFor(reg, scan, f.kind.typeId)(s).value)),
                      seen + {n}, None)
  {
    PlainTag(n, seen);
  }

  /** An array or slice whose variable is set is filled by the collection populator. */
  lemma CollectionLoaded(f: Field, n: string, s: string, seen: set<string>, env: Env, reg: Registry, scan: Scanner)
    requires FieldWellFormed(f) && (f.kind.Array? || f.kind.Slice?)
    requires f.tag == n && IsToken(n) && n !in seen
    requires EnvValue(env, n) == s && s != ""
    ensures var filled := Collections.SetIterableField(f.kind.Slice?, f.kind.elemType, f.kind.elems, s, n,
                                                       f.settable, reg, scan);
            LoadField(f, seen, env, reg, scan)
            == FieldLoad(f.(kind := if f.kind.Slice? then Slice(f.kind.elemType, filled.elems)
                                    else Array(f.kind.elemType, filled.elems)),
                         seen + {n}, filled.err)
  {
    PlainTag(n, seen);
  }

  /** A slice field given a list whose elements all convert holds exactly the converted values. */
  lemma SliceFills(f: Field, n: string, parts: seq<string>, values: seq<Value>, seen: set<string>,
                   env: Env, reg: Registry, scan: Scanner)
    requires f.kind.Slice? && f.settable && |parts| >= 1 && |parts| == |values|
    requires f.tag == n && IsToken(n) && n !in seen
    requires forall i :: 0 <= i < |parts| ==> ',' !in parts[i]
    requires forall i :: 0 <= i < |parts| ==> SetField(f.kind.elemType, parts[i], n, true, reg, scan) == Success(values[i])
    requires EnvValue(env, n) == "[" + Join(parts, ',') + "]"
    ensures FieldWellFormed(f)
    ensures LoadField(f, seen, env, reg, scan) == FieldLoad(f.(kind := Slice(f.kind.elemType, values)), seen + {n}, None)
  {
    FieldsOfToken(n, SplitTags);
    Collections.LoadListIntoSlice(parts, values, f.kind.elemType, f.kind.elems, n, reg, scan);
    CollectionLoaded(f, n, EnvValue(env, n), seen, env, reg, scan);
  }

  /** An array field as long as a list whose elements all convert holds exactly the converted values. */
  lemma ArrayFills(f: Field, n: string, parts: seq<string>, values: seq<Value>, seen: set<string>,
                   env: Env, reg: Registry, scan: Scanner)
    requires f.kind.Array? && f.settable && |parts| >= 1 && |parts| == |values| == |f.kind.elems|
    requires f.tag == n && IsToken(n) && n !in seen
    requires forall i :: 0 <= i < |parts| ==> ',' !in parts[i]
    requires forall i :: 0 <= i < |parts| ==> SetField(f.kind.elemType, parts[i], n, true, reg, scan) == Success(values[i])
    requires EnvValue(env, n) == "[" + Join(parts, ',') + "]"
    ensures FieldWellFormed(f)
    ensures LoadField(f, seen, env, reg, scan) == FieldLoad(f.(kind := Array(f.kind.elemType, values)), seen + {n}, None)
  {
    FieldsOfToken(n, SplitTags);
    Collections.LoadListIntoArray(parts, values, f.kind.elemType, f.kind.elems, n, reg, scan);
    assert values + f.kind.elems[|parts|..] == values;
    CollectionLoaded(f, n, EnvValue(env, n), seen, env, reg, scan);
  }

  /** An array field given a list longer than itself fails with a size overflow and stays as it was. */
  lemma ArrayOverflows(f: Field, n: string, parts: seq<string>, seen: set<string>, env: Env, reg: Registry, scan: Scanner)
    requires f.kind.Array? && f.settable && 0 < |f.kind.elems| < |parts|
    requires f.tag == n && IsToken(n) && n !in seen
    requires forall i :: 0 <= i < |parts| ==> ',' !in parts[i]
    requires EnvValue(env, n) == "[" + Join(parts, ',') + "]"
    ensures FieldWellFormed(f)
    ensures LoadField(f, seen, env, reg, scan)
         == FieldLoad(f, seen + {n}, Some(Parse(EnvValue(env, n), n, SizeOverflow(|f.kind.elems|, |parts|))))
  {
    FieldsOfToken(n, SplitTags);
    Collections.LoadListOverflow(parts, f.kind.elemType, f.kind.elems, n, reg, scan);
    CollectionLoaded(f, n, EnvValue(env, n), seen, env, reg, scan);
    assert f.(kind := Array(f.kind.elemType, f.kind.elems)) == f;
  }

  /** Registering a converter for T and loading a T from a string it accepts
      yields exactly the value the converter returns. */
  lemma RegisteredTypeRoundTrip(f: Field, n: string, s: string, unmarshal: Converter, seen: set<string>,
                                env: Env, reg: Registry, scan: Scanner)
    requires f.kind.Scalar? && f.settable
    requires f.tag == n && IsToken(n) && n !in seen
    requires EnvValue(env, n) == s && s != "" && unmarshal(s).Success?
    ensures FieldWellFormed(f)
    ensures LoadField(f, seen, env, Register(reg, f.kind.typeId, unmarshal), scan)
         == FieldLoad(f.(kind := Scalar(f.kind.typeId, unmarshal(s).value)), seen + {n}, None)
  {
    PlainTag(n, seen);
  }

  /** A conversion failure reports the raw value and the variable name, with the converter's text. */
  lemma ParseErrorCarriesRawValue(f: Field, n: string, s: string, seen: set<string>, env: Env,
                                  reg: Registry, scan: Scanner)
    requires f.kind.Scalar? && f.settable
    requires f.tag == n && IsToken(n) && n !in seen
    requires EnvValue(env, n) == s && s != ""
    requires ConverterFor(reg, scan, f.kind.typeId)(s).Failure?
    ensures FieldWellFormed(f)
    ensures var cause := ConverterFor(reg, scan, f.kind.typeId)(s).error;
            && LoadField(f, seen, env, reg, scan) == FieldLoad(f, seen + {n}, Some(Parse(s, n, Conversion(cause))))
            && Message(Parse(s, n, Conversion(cause)))
               == "error parsing '" + s + "' as environment variable " + n + ": " + cause
  {
    PlainTag(n, seen);
  }

  /** Fail fast: an error in the first field is the walk's error and nothing after it is touched. */
  lemma FirstErrorWins(fields: seq<Field>, seen: set<string>, env: Env, reg: Registry, scan: Scanner)
    requires AllWellFormed(fields) && |fields| > 0
    requires LoadField(fields[0], seen, env, reg, scan).err.Some?
    ensures var h := LoadField(fields[0], seen, env, reg, scan);
            LoadFields(fields, seen, env, reg, scan) == Walked([h.field] + fields[1..], h.seen, h.err)
  {
  }

  /** A struct whose first field fails without changing is returned as it was, with that error. */
  lemma FirstFieldStops(fields: seq<Field>, seen: set<string>, env: Env, reg: Registry, scan: Scanner)
    requires AllWellFormed(fields) && |fields| > 0
    requires LoadField(fields[0], seen, env, reg, scan).err.Some?
    requires LoadField(fields[0], seen, env, reg, scan).field == fields[0]
    ensures var h := LoadField(fields[0], seen, env, reg, scan);
            LoadEnv(Config(true, Struct(fields)), seen, env, reg, scan) == Loaded(Config(true, Struct(fields)), h.seen, h.err)
  {
    FirstErrorWins(fields, seen, env, reg, scan);
    assert [fields[0]] + fields[1..] == fields;
  }

  /** Of two fields, a failing first one stops the walk before the second. */
  lemma FirstOfTwoFails(a: Field, b: Field, seen: set<string>, env: Env, reg: Registry, scan: Scanner)
    requires FieldWellFormed(a) && FieldWellFormed(b)
    requires LoadField(a, seen, env, reg, scan).err.Some?
    ensures AllWellFormed([a, b])
    ensures var h := LoadField(a, seen, env, reg, scan);
            LoadFields([a, b], seen, env, reg, scan) == Walked([h.field, b], h.seen, h.err)
  {
    assert [a, b][0] == a && [a, b][1..] == [b];
    var h := LoadField(a, seen, env, reg, scan);
    assert [h.field] + [b] == [h.field, b];
  }

  /** Once the first field loads, the rest of the walk starts from the names it recorded. */
  lemma FirstFieldLoads(fields: seq<Field>, seen: set<string>, env: Env, reg: Registry, scan: Scanner)
    requires AllWellFormed(fields) && |fields| > 0
    requires LoadField(fields[0], seen, env, reg, scan).err.None?
    ensures var h := LoadField(fields[0], seen, env, reg, scan);
            var t := LoadFields(fields[1..], h.seen, env, reg, scan);
            LoadFields(fields, seen, env, reg, scan) == Walked([h.field] + t.fields, t.seen, t.err)
  {
  }

  /** Field `i` of `fields`, loaded from `seens[i]`, gives `loaded[i]` and records `seens[i + 1]`. */
  predicate LoadsCleanly(fields: seq<Field>, loaded: seq<Field>, seens: seq<set<string>>, i: nat,
                         env: Env, reg: Registry, scan: Scanner)
    requires AllWellFormed(fields) && i < |fields| && |loaded| == |fields| && |seens| == |fields| + 1
  {
    LoadField(fields[i], seens[i], env, reg, scan) == FieldLoad(loaded[i], seens[i + 1], None)
  }

  /** Every struct-kind field whose tag parses is walked, whatever its tag and
      however many fields it has: it becomes its loaded contents, the walk starts
      from the names its own tag recorded, and an inner error is wrapped with the
      name of the struct's first field. */
  lemma StructFieldLoads(f: Field, seen: set<string>, env: Env, reg: Registry, scan: Scanner)
    requires FieldWellFormed(f) && f.kind.Nested?
    requires GetTags(f.tag, seen).result.Success?
    ensures AllWellFormed(f.kind.fields)
    ensures var w := LoadFields(f.kind.fields, GetTags(f.tag, seen).seen, env, reg, scan);
            LoadField(f, seen, env, reg, scan)
            == FieldLoad(f.(kind := Nested(w.fields)), w.seen,
                         if w.err.Some? then Some(NestedStruct(f.kind.fields[0].name, w.err.value)) else None)
  {
  }

  /** An untagged struct field with one field loads as that field does, its error wrapped. */
  lemma UntaggedStructLoads(f: Field, inner: Field, seen: set<string>, env: Env, reg: Registry, scan: Scanner)
    requires f.tag == "" && f.kind == Nested([inner]) && FieldWellFormed(f)
    ensures FieldWellFormed(inner)
    ensures var i := LoadField(inner, seen, env, reg, scan);
            LoadField(f, seen, env, reg, scan)
            == FieldLoad(f.(kind := Nested([i.field])), i.seen,
                         if i.err.Some? then Some(NestedStruct(inner.name, i.err.value)) else None)
  {
    assert FieldWellFormed([inner][0]);
    assert GetTags("", seen) == TagParse(seen, Success(map[]));
    StructFieldLoads(f, seen, env, reg, scan);
    SingleWalk(inner, seen, env, reg, scan);
  }

  /** A struct field whose tag spells a new name and whose fields each load cleanly,
      in order, from the names recorded before them, loads without error: its name
      is recorded before any of its fields', and it holds the loaded fields. */
  lemma CleanNestedLoad(f: Field, d: Directive, loaded: seq<Field>, seens: seq<set<string>>,
                        seen: set<string>, env: Env, reg: Registry, scan: Scanner)
    requires FieldWellFormed(f) && f.kind.Nested?
    requires ValidDirective(d) && f.tag == Render(d) && d.name !in seen
    requires |loaded| == |f.kind.fields| && |seens| == |f.kind.fields| + 1
    requires seens[0] == seen + {d.name}
    requires AllWellFormed(f.kind.fields)
    requires forall i :: 0 <= i < |f.kind.fields| ==> LoadsCleanly(f.kind.fields, loaded, seens, i, env, reg, scan)
    ensures LoadField(f, seen, env, reg, scan) == FieldLoad(f.(kind := Nested(loaded)), seens[|loaded|], None)
  {
    var inner := f.kind.fields;
    RenderRoundTrip(d, seen);
    StructFieldLoads(f, seen, env, reg, scan);
    CleanRun(inner, loaded, seens, 0, |inner|, env, reg, scan);
    assert inner[0..] == inner && loaded[0..|inner|] == loaded && inner[|inner|..] == [];
    assert LoadFields([], seens[|inner|], env, reg, scan) == Walked([], seens[|inner|], None);
    assert loaded + [] == loaded;
  }

  /** A scalar changes only by a successful conversion of the text its tag resolves to. */
  lemma ScalarChangesOnlyByConversion(f: Field, seen: set<string>, env: Env, reg: Registry, scan: Scanner)
    requires FieldWellFormed(f) && f.kind.Scalar?
    ensures var r := LoadField(f, seen, env, reg, scan);
            r.field != f ==>
              && r.err.None? && GetTags(f.tag, seen).result.Success?
              && var tags := GetTags(f.tag, seen).result.value;
                 && GetField(tags, env).Success?
                 && SetField(f.kind.typeId, GetField(tags, env).value, Get(tags, "name"), f.settable, reg, scan)
                    == Success(r.field.kind.value)
                 && r.field == f.(kind := Scalar(f.kind.typeId, r.field.kind.value))
  {
  }

  /** A walk over one field is that field's load. */
  lemma SingleWalk(f: Field, seen: set<string>, env: Env, reg: Registry, scan: Scanner)
    requires FieldWellFormed(f)
    ensures AllWellFormed([f])
    ensures var h := LoadField(f, seen, env, reg, scan);
            LoadFields([f], seen, env, reg, scan) == Walked([h.field], h.seen, h.err)
  {
    assert [f][0] == f && [f][1..] == [];
    var h := LoadField(f, seen, env, reg, scan);
    assert LoadFields([], h.seen, env, reg, scan) == Walked([], h.seen, None);
  }

  /** A struct of one field loads as that field does. */
  lemma OneFieldStruct(f: Field, seen: set<string>, env: Env, reg: Registry, scan: Scanner)
    requires FieldWellFormed(f)
    ensures ConfigWellFormed(Config(true, Struct([f])))
    ensures var h := LoadField(f, seen, env, reg, scan);
            LoadEnv(Config(true, Struct([f])), seen, env, reg, scan) == Loaded(Config(true, Struct([h.field])), h.seen, h.err)
  {
    SingleWalk(f, seen, env, reg, scan);
  }

  /** A walk from field `k` whose fields up to `m` each load cleanly yields those loaded
      fields followed by the walk from `m`. */
  lemma {:induction false} CleanRun(fields: seq<Field>, loaded: seq<Field>, seens: seq<set<string>>, k: nat, m: nat,
                                    env: Env, reg: Registry, scan: Scanner)
    requires AllWellFormed(fields) && k <= m <= |fields| && |loaded| == |fields| && |seens| == |fields| + 1
    requires forall i :: k <= i < m ==> LoadsCleanly(fields, loaded, seens, i, env, reg, scan)
    ensures AllWellFormed(fields[k..]) && AllWellFormed(fields[m..])
    ensures var t := LoadFields(fields[m..], seens[m], env, reg, scan);
            LoadFields(fields[k..], seens[k], env, reg, scan) == Walked(loaded[k..m] + t.fields, t.seen, t.err)
    decreases m - k
  {
    if k == m {
      assert loaded[k..m] == [];
    } else {
      CleanRun(fields, loaded, seens, k + 1, m, env, reg, scan);
      assert LoadsCleanly(fields, loaded, seens, k, env, reg, scan);
      CleanStep(fields, loaded, seens, k, env, reg, scan);
      ConsSlice(loaded, k, m, LoadFields(fields[m..], seens[m], env, reg, scan).fields);
    }
  }

  lemma ConsSlice<T>(s: seq<T>, k: nat, m: nat, rest: seq<T>)
    requires k < m <= |s|
    ensures [s[k]] + (s[k + 1..m] + rest) == s[k..m] + rest
  {
    assert s[k..m] == [s[k]] + s[k + 1..m];
  }

  /** One more clean field extends the loaded prefix by one. */
  lemma CleanStep(fields: seq<Field>, loaded: seq<Field>, seens: seq<set<string>>, j: nat,
                  env: Env, reg: Registry, scan: Scanner)
    requires AllWellFormed(fields) && j < |fields| && |loaded| == |fields| && |seens| == |fields| + 1
    requires LoadsCleanly(fields, loaded, seens, j, env, reg, scan)
    ensures AllWellFormed(fields[j..]) && AllWellFormed(fields[j + 1..])
    ensures var t := LoadFields(fields[j + 1..], seens[j + 1], env, reg, scan);
            var u := LoadFields(fields[j..], seens[j], env, reg, scan);
            u == Walked([loaded[j]] + t.fields, t.seen, t.err)
  {
    var rest := fields[j..];
    assert rest[0] == fields[j] && rest[1..] == fields[j + 1..];
    FirstFieldLoads(rest, seens[j], env, reg, scan);
  }

  /** Two fields of one struct with the same name: the second fails with "duplicate tag". */
  lemma DuplicateNameFails(a: Field, b: Field, rest: seq<Field>, n: string, seen: set<string>,
                           env: Env, reg: Registry, scan: Scanner)
    requires FieldWellFormed(a) && FieldWellFormed(b) && AllWellFormed(rest)
    requires !a.kind.Nested? && a.tag == n && b.tag == n && IsToken(n)
    requires LoadField(a, seen, env, reg, scan).err.None?
    ensures AllWellFormed([a, b] + rest)
    ensures var w := LoadFields([a, b] + rest, seen, env, reg, scan);
            && w.err == Some(BadTag(b.name, DuplicateTag(n)))
            && EndsWith(Message(w.err.value), ": duplicate tag: " + n)
  {
    var fields := [a, b] + rest;
    PairWellFormed(a, b, rest);
    FieldsOfToken(n, SplitTags);
    var h := LoadField(a, seen, env, reg, scan);
    assert h.seen == seen + {n};
    assert fields[0] == a && fields[1..] == [b] + rest;
    FirstFieldLoads(fields, seen, env, reg, scan);
    NameAlreadySeen(b, n, h.seen, env, reg, scan);
    assert ([b] + rest)[0] == b;
    FirstErrorWins([b] + rest, h.seen, env, reg, scan);
    DuplicateTagMessage(b.name, n);
  }

  lemma PairWellFormed(a: Field, b: Field, rest: seq<Field>)
    requires FieldWellFormed(a) && FieldWellFormed(b) && AllWellFormed(rest)
    ensures AllWellFormed([a, b] + rest) && AllWellFormed([b] + rest)
  {
    var fields := [a, b] + rest;
    forall i | 0 <= i < |fields|
      ensures FieldWellFormed(fields[i])
    {
      if i >= 2 {
        assert fields[i] == rest[i - 2];
      }
    }
    assert ([a, b] + rest)[1..] == [b] + rest;
  }

  /** A field whose tag name is already recorded fails with "duplicate tag", naming the field. */
  lemma NameAlreadySeen(b: Field, n: string, seen: set<string>, env: Env, reg: Registry, scan: Scanner)
    requires FieldWellFormed(b) && b.tag == n && IsToken(n) && n in seen
    ensures LoadField(b, seen, env, reg, scan).err == Some(BadTag(b.name, DuplicateTag(n)))
  {
    FieldsOfToken(n, SplitTags);
  }

  /** A struct field's own tag name is recorded before its fields are walked, so
      a first inner field with the same name fails, and the error names that field. */
  lemma NestedTagRecordedBeforeRecursion(f: Field, n: string, seen: set<string>, env: Env,
                                         reg: Registry, scan: Scanner)
    requires FieldWellFormed(f) && f.kind.Nested? && |f.kind.fields| > 0
    requires f.tag == n && f.kind.fields[0].tag == n && IsToken(n) && n !in seen
    ensures var inner := f.kind.fields[0];
            LoadField(f, seen, env, reg, scan).err
            == Some(NestedStruct(inner.name, BadTag(inner.name, DuplicateTag(n))))
  {
    PlainTag(n, seen);
    var inner := f.kind.fields;
    assert FieldWellFormed(inner[0]);
    FieldsOfToken(n, SplitTags);
    FirstErrorWins(inner, seen + {n}, env, reg, scan);
  }

  /** A failing nested struct ends the walk, whatever its tag: its error, prefixed
      with the name of its first field, is returned, and the sibling fields after
      it are not touched. */
  lemma NestedFailureStopsSiblings(fields: seq<Field>, seen: set<string>, env: Env, reg: Registry, scan: Scanner)
    requires AllWellFormed(fields) && |fields| > 0 && fields[0].kind.Nested?
    requires GetTags(fields[0].tag, seen).result.Success?
    requires LoadFields(fields[0].kind.fields, GetTags(fields[0].tag, seen).seen, env, reg, scan).err.Some?
    ensures var inner := fields[0].kind.fields;
            var e := LoadFields(inner, GetTags(fields[0].tag, seen).seen, env, reg, scan).err.value;
            var w := LoadFields(fields, seen, env, reg, scan);
            && w.err == Some(NestedStruct(inner[0].name, e))
            && w.fields[1..] == fields[1..]
            && EndsWith(Message(w.err.value), Message(e))
  {
    var inner := fields[0].kind.fields;
    var e := LoadFields(inner, GetTags(fields[0].tag, seen).seen, env, reg, scan).err.value;
    StructFieldLoads(fields[0], seen, env, reg, scan);
    FirstErrorWins(fields, seen, env, reg, scan);
    NestedMessageEmbedsCause(inner[0].name, e);
  }

  /** A fail-fast fold over a struct's fields with an arbitrary step: each field is
      loaded from the names recorded so far, and the first error ends the fold. */
  function Walk(step: (Field, set<string>) -> FieldLoad, fields: seq<Field>, seen: set<string>): Walked
    decreases |fields|
  {
    if |fields| == 0 then Walked([], seen, None)
    else
      var h := step(fields[0], seen);
      if h.err.Some? then Walked([h.field] + fields[1..], h.seen, h.err)
      else
        var t := Walk(step, fields[1..], h.seen);
        Walked([h.field] + t.fields, t.seen, t.err)
  }

  /** `LoadField` as a step of the fold. */
  function Step(env: Env, reg: Registry, scan: Scanner): (Field, set<string>) -> FieldLoad {
    (f: Field, s: set<string>) => if FieldWellFormed(f) then LoadField(f, s, env, reg, scan) else FieldLoad(f, s, None)
  }

  lemma StepIsLoadField(f: Field, s: set<string>, env: Env, reg: Registry, scan: Scanner)
    requires FieldWellFormed(f)
    ensures Step(env, reg, scan)(f, s) == LoadField(f, s, env, reg, scan)
  {
  }

  /** `LoadEnv`'s loop is exactly the fail-fast fold of `LoadField`. */
  lemma {:induction false} LoadFieldsIsWalk(fields: seq<Field>, seen: set<string>, env: Env, reg: Registry, scan: Scanner)
    requires AllWellFormed(fields)
    ensures LoadFields(fields, seen, env, reg, scan) == Walk(Step(env, reg, scan), fields, seen)
    decreases |fields|
  {
    if |fields| > 0 {
      var h := LoadField(fields[0], seen, env, reg, scan);
      StepIsLoadField(fields[0], seen, env, reg, scan);
      if h.err.None? {
        LoadFieldsIsWalk(fields[1..], h.seen, env, reg, scan);
      }
    }
  }

  /** The fold stops at field `k`: the fields before it fold cleanly, field `k`
      fails from the names they recorded, and the result is the folded prefix,
      the failed field as left, and the untouched rest. */
  predicate WalkStopsAt(step: (Field, set<string>) -> FieldLoad, fields: seq<Field>, k: nat, seen: set<string>)
    requires k < |fields|
  {
    var p := Walk(step, fields[..k], seen);
    var h := step(fields[k], p.seen);
    && p.err.None? && h.err.Some?
    && Walk(step, fields, seen) == Walked(p.fields + [h.field] + fields[k + 1..], h.seen, h.err)
  }

  /** A fold that fails stops at its first failing field. */
  lemma {:induction false} WalkFailsFast(step: (Field, set<string>) -> FieldLoad, fields: seq<Field>, seen: set<string>)
    requires Walk(step, fields, seen).err.Some?
    ensures exists k :: 0 <= k < |fields| && WalkStopsAt(step, fields, k, seen)
    decreases |fields|
  {
    var h := step(fields[0], seen);
    if h.err.Some? {
      assert fields[..0] == [];
      assert WalkStopsAt(step, fields, 0, seen);
    } else {
      WalkFailsFast(step, fields[1..], h.seen);
      var k :| 0 <= k < |fields[1..]| && WalkStopsAt(step, fields[1..], k, h.seen);
      WalkStopsLater(step, fields, k, seen);
    }
  }

  /** A clean first field moves the stopping point of the rest one place on. */
  lemma WalkStopsLater(step: (Field, set<string>) -> FieldLoad, fields: seq<Field>, k: nat, seen: set<string>)
    requires 0 < |fields| && k < |fields| - 1
    requires step(fields[0], seen).err.None?
    requires WalkStopsAt(step, fields[1..], k, step(fields[0], seen).seen)
    ensures WalkStopsAt(step, fields, k + 1, seen)
  {
    var h := step(fields[0], seen);
    var rest := fields[1..];
    var p := Walk(step, rest[..k], h.seen);
    var g := step(rest[k], p.seen);
    var pre := fields[..k + 1];
    assert pre[0] == fields[0] && pre[1..] == rest[..k];
    assert Walk(step, pre, seen) == Walked([h.field] + p.fields, p.seen, None);
    assert rest[k] == fields[k + 1] && rest[k + 1..] == fields[k + 2..];
    assert [h.field] + (p.fields + [g.field] + rest[k + 1..]) == ([h.field] + p.fields) + [g.field] + fields[k + 2..];
  }

  /** The walk of `fields` stops at field `k`: the fields before it load cleanly,
      field `k` fails from the names they recorded, and the result is the loaded
      prefix, the failed field as left, and the untouched rest. */
  predicate StopsAt(fields: seq<Field>, k: nat, seen: set<string>, env: Env, reg: Registry, scan: Scanner)
    requires AllWellFormed(fields) && k < |fields|
  {
    assert AllWellFormed(fields[..k]);
    var p := LoadFields(fields[..k], seen, env, reg, scan);
    var h := LoadField(fields[k], p.seen, env, reg, scan);
    && p.err.None? && h.err.Some?
    && LoadFields(fields, seen, env, reg, scan) == Walked(p.fields + [h.field] + fields[k + 1..], h.seen, h.err)
  }

  /** Fail fast: a walk that fails stops at its first failing field. */
  lemma FailFastAt(fields: seq<Field>, seen: set<string>, env: Env, reg: Registry, scan: Scanner)
    requires AllWellFormed(fields)
    requires LoadFields(fields, seen, env, reg, scan).err.Some?
    ensures exists k :: 0 <= k < |fields| && StopsAt(fields, k, seen, env, reg, scan)
  {
    var step := Step(env, reg, scan);
    LoadFieldsIsWalk(fields, seen, env, reg, scan);
    WalkFailsFast(step, fields, seen);
    var k :| 0 <= k < |fields| && WalkStopsAt(step, fields, k, seen);
    assert AllWellFormed(fields[..k]);
    LoadFieldsIsWalk(fields[..k], seen, env, reg, scan);
    var p := LoadFields(fields[..k], seen, env, reg, scan);
    StepIsLoadField(fields[k], p.seen, env, reg, scan);
    assert StopsAt(fields, k, seen, env, reg, scan);
  }

  /** Anything but a pointer to a struct is refused with its fixed message, and nothing changes. */
  lemma NotAPointerRefused(config: Config, seen: set<string>, env: Env, reg: Registry, scan: Scanner)
    requires !IsStructPointer(config)
    ensures LoadEnv(config, seen, env, reg, scan) == Loaded(config, seen, Some(NotStructPointer))
    ensures Message(NotStructPointer) == "config must be a pointer to a struct"
  {
  }
}

=== FILE: loader.dfy ===
/**
 The structure walker (`LoadEnv` in load_config.go). Fields are processed in
 declaration order; the first error ends the walk, and whatever was set
 before it stays set. The set of tag names already seen is threaded through
 the walk and returned, because Go keeps it in a package variable that
 outlives each call.
 */
module Loader {
  import opened Wrappers
  import opened Strings
  import opened Errors
  import opened Schema
  import opened EnvTypes
  import opened Tags
  import opened Resolve
  import opened Convert
  import opened Collections

  /** The inputs on which the walk never panics: no tag ends in a `default`
      without a value, and no array has length zero. */
  predicate FieldWellFormed(f: Field)
    decreases f
  {
    && (|Tokens(f.tag)| == 0 || DefaultsHaveValues(Tokens(f.tag), 1, false))
    && match f.kind
       case Nested(inner) => forall i :: 0 <= i < |inner| ==> FieldWellFormed(inner[i])
       case Array(_, elems) => |elems| > 0
       case _ => true
  }

  predicate AllWellFormed(fields: seq<Field>) {
    forall i :: 0 <= i < |fields| ==> FieldWellFormed(fields[i])
  }

  /** The tag names a field records in the seen set: its first token, if any. */
  function TagName(f: Field): set<string> {
    var ts := Tokens(f.tag);
    if |ts| == 0 then {} else {ts[0]}
  }

  /** One field after loading, the seen set after it, and its error if any. */
  datatype FieldLoad = FieldLoad(field: Field, seen: set<string>, err: Option<LoadError>)

  /** A struct's fields after loading, the seen set after them, and the error that stopped the walk. */
  datatype Walked = Walked(fields: seq<Field>, seen: set<string>, err: Option<LoadError>)

  /** One iteration of `LoadEnv`'s loop: parse the tag (recording its name),
      recurse into a struct field, otherwise resolve and store the value. */
  function LoadField(f: Field, seen: set<string>, env: Env, reg: Registry, scan: Scanner): (r: FieldLoad)
    requires FieldWellFormed(f)
    ensures SameShape(f, r.field)
    ensures seen + TagName(f) <= r.seen
    ensures !f.kind.Nested? ==> r.seen == seen + TagName(f)
    // a scalar is only ever replaced by a successful conversion
    ensures f.kind.Scalar? && r.err.Some? ==> r.field == f
    // the errors each kind of field can raise
    ensures r.err.Some? && !f.kind.Nested? ==>
              r.err.value.BadTag? || r.err.value.EnvNotFound? || r.err.value.Parse?
    ensures r.err.Some? && f.kind.Nested? ==>
              (r.err.value.BadTag? && r.err.value.field == f.name) ||
              (r.err.value.NestedStruct? && |f.kind.fields| > 0 && r.err.value.innerField == f.kind.fields[0].name)
    decreases f
  {
    SameShapeReflexive(f);
    var p := GetTags(f.tag, seen);
    match p.result
    case Failure(e) => FieldLoad(f, p.seen, Some(BadTag(f.name, e)))
    case Success(tags) =>
      if f.kind.Nested? then
        // every struct-kind field is walked, whatever its tag
        var w := LoadFields(f.kind.fields, p.seen, env, reg, scan);
        var loaded := f.(kind := Nested(w.fields));
        if w.err.Some? then
          // the error names the nested struct's first field, not `f`
          FieldLoad(loaded, w.seen, Some(NestedStruct(f.kind.fields[0].name, w.err.value)))
        else FieldLoad(loaded, w.seen, None)
      else if Get(tags, "name") == "" then FieldLoad(f, p.seen, None)
      else
        match GetField(tags, env)
        case Failure(e) => FieldLoad(f, p.seen, Some(e))
        case Success(str) =>
          if str == "" then FieldLoad(f, p.seen, None)
          else
            var name := Get(tags, "name");
            match f.kind
            case Scalar(t, _) =>
              (match SetField(t, str, name, f.settable, reg, scan)
               case Failure(e) => FieldLoad(f, p.seen, Some(e))
               case Success(v) => FieldLoad(f.(kind := Scalar(t, v)), p.seen, None))
            case Array(t, elems) =>
              var filled := SetIterableField(false, t, elems, str, name, f.settable, reg, scan);
              FieldLoad(f.(kind := Array(t, filled.elems)), p.seen, filled.err)
            case Slice(t, elems) =>
              var filled := SetIterableField(true, t, elems, str, name, f.settable, reg, scan);
              FieldLoad(f.(kind := Slice(t, filled.elems)), p.seen, filled.err)
  }

  /** `LoadEnv`'s loop over a struct's fields, in declaration order, failing fast. */
  function LoadFields(fields: seq<Field>, seen: set<string>, env: Env, reg: Registry, scan: Scanner): (r: Walked)
    requires AllWellFormed(fields)
    ensures AllSameShape(fields, r.fields)
    ensures seen <= r.seen
    ensures r.err.Some? ==> |fields| > 0 && r.err.value != NotStructPointer
    decreases fields
  {
    if |fields| == 0 then Walked([], seen, None)
    else
      var h := LoadField(fields[0], seen, env, reg, scan);
      if h.err.Some? then
        AllSameShapeReflexive(fields[1..]);
        AllSameShapeCons(fields[0], fields[1..], h.field, fields[1..]);
        Walked([h.field] + fields[1..], h.seen, h.err)
      else
        var t := LoadFields(fields[1..], h.seen, env, reg, scan);
        AllSameShapeCons(fields[0], fields[1..], h.field, t.fields);
        Walked([h.field] + t.fields, t.seen, t.err)
  }

  /** The outcome of `LoadEnv`: the argument as left, the seen set after the call, the error. */
  datatype Loaded = Loaded(config: Config, seen: set<string>, err: Option<LoadError>)

  predicate IsStructPointer(config: Config) {
    config.isPointer && config.target.Struct?
  }

  predicate ConfigWellFormed(config: Config) {
    IsStructPointer(config) ==> AllWellFormed(config.target.fields)
  }

  /** `LoadEnv`: refuses anything but a pointer to a struct, then walks the struct. */
  function LoadEnv(config: Config, seen: set<string>, env: Env, reg: Registry, scan: Scanner): (r: Loaded)
    requires ConfigWellFormed(config)
    // the argument check comes first and changes nothing
    ensures !IsStructPointer(config) ==> r == Loaded(config, seen, Some(NotStructPointer))
    ensures IsStructPointer(config) ==>
              && IsStructPointer(r.config)
              && AllSameShape(config.target.fields, r.config.target.fields)
              && (r.err.Some? ==> r.err.value != NotStructPointer)
    ensures seen <= r.seen
  {
    if !config.isPointer || !config.target.Struct? then Loaded(config, seen, Some(NotStructPointer))
    else
      var w := LoadFields(config.target.fields, seen, env, reg, scan);
      Loaded(config.(target := Struct(w.fields)), w.seen, w.err)
  }
}

=== FILE: resolve.dfy ===
/**
 Value resolution (`getField` in load_config.go): the environment value if
 it is non-empty, else the tag's default, else "" for an optional field,
 else an `EnvNotFoundError`.
 */
module Resolve {
  import opened Wrappers
  import opened Errors
  import opened Tags

  /** The process environment, replaced by a map. */
  type Env = map<string, string>

  /** `os.Getenv`: an unset variable reads as "", like one set to "". */
  function EnvValue(env: Env, key: string): string {
    if key in env then env[key] else ""
  }

  function GetField(tags: Directives, env: Env): (r: Result<string, LoadError>)
    ensures var v := EnvValue(env, Get(tags, "name"));
            && (v != "" ==> r == Success(v))
            && (r.Failure? <==> v == "" && "default" !in tags && "optional" !in tags)
            && (r.Failure? ==> r.error == EnvNotFound(Get(tags, "name")))
            && (r.Success? && v == "" && "default" in tags ==> r.value == tags["default"])
            && (r.Success? && v == "" && "default" !in tags ==> r.value == "")
  {
    var str := EnvValue(env, Get(tags, "name"));
    if str != "" then Success(str)
    else if "default" in tags then Success(tags["default"])
    else if "optional" !in tags then Failure(EnvNotFound(Get(tags, "name")))
    else Success("")
  }

  /** Resolution of a field whose tag spells directive `d`: environment first,
      then the default, then "" when optional, and otherwise not found. */
  lemma ResolveDirective(d: Directive, env: Env)
    requires ValidDirective(d)
    ensures var r := GetField(Meaning(d), env);
            var v := EnvValue(env, d.name);
            && (v != "" ==> r == Success(v))
            && (v == "" && d.default.Some? ==> r == Success(d.default.value) && r.value != "")
            && (v == "" && d.default.None? && "optional" in d.flags ==> r == Success(""))
            && (v == "" && d.default.None? && "optional" !in d.flags ==> r == Failure(EnvNotFound(d.name)))
  {
    var m := Meaning(d);
    assert Get(m, "name") == d.name;
    assert "default" in m <==> d.default.Some?;
    assert "optional" in m <==> "optional" in d.flags;
  }
}

=== FILE: scenarios.dfy ===
/**
 The cases of load_config_test.go, stated over the model. Type conversion is
 a parameter, so each case states what it needs of the converters. The
 variable names of the test's `TestConfig` ("HOST", "PORT", "OPTIONAL",
 "DEFAULT", "DB_HOST", "PARSE_EMBEDDED_ERR", "PARSE_ERR") are kept symbolic:
 the cases hold for any seven distinct tag-safe names, the test's among them.
 */
module Scenarios {
  import opened Wrappers
  import opened Strings
  import opened Errors
  import opened Schema
  import opened EnvTypes
  import opened Tags
  import opened Resolve
  import opened Convert
  import opened Collections
  import opened Loader
  import opened LoadProperties

  const StringType: TypeId := TypeId("", "string")
  const IntType: TypeId := TypeId("", "int")
  const CustomMapType: TypeId := TypeId("goloadenv", "CustomMapType")

  /** The environment variable names `TestConfig`'s tags use. */
  datatype TestNames = TestNames(host: string, port: string, optional: string, default: string,
                                 dbHost: string, parseEmbedded: string, parseErr: string)

  function NameList(n: TestNames): seq<string> {
    [n.host, n.port, n.optional, n.default, n.dbHost, n.parseEmbedded, n.parseErr]
  }

  /** Usable as tag names, and pairwise different. */
  predicate ValidNames(n: TestNames) {
    var l := NameList(n);
    && (forall i :: 0 <= i < |l| ==> IsToken(l[i]))
    && (forall i, j :: 0 <= i < j < |l| ==> l[i] != l[j])
  }

  /** The names the test file uses. */
  const GoNames: TestNames :=
    TestNames("HOST", "PORT", "OPTIONAL", "DEFAULT", "DB_HOST", "PARSE_EMBEDDED_ERR", "PARSE_ERR")

  lemma GoNamesValid()
    ensures ValidNames(GoNames)
  {
    assert IsToken("HOST") && IsToken("PORT") && IsToken("OPTIONAL") && IsToken("DEFAULT");
    assert IsToken("DB_HOST") && IsToken("PARSE_EMBEDDED_ERR") && IsToken("PARSE_ERR");
  }

  function StringField(name: string, tag: string): Field {
    Field(name, tag, true, Scalar(StringType, Zero(StringType)))
  }

  function CustomMapField(name: string, tag: string): Field {
    Field(name, tag, true, Scalar(CustomMapType, Zero(CustomMapType)))
  }

  function HostField(n: TestNames): Field { StringField("Host", n.host) }
  function PortField(n: TestNames): Field { Field("Port", n.port, true, Scalar(IntType, Zero(IntType))) }
  function OptionalField(n: TestNames): Field { StringField("Optional", n.optional + ";optional") }
  function DefaultField(n: TestNames): Field { StringField("Default", n.default + ";default:default") }
  function DbHostField(n: TestNames): Field { StringField("Host", n.dbHost + ";default:localhost") }
  function EmbeddedParseErrField(n: TestNames): Field {
    CustomMapField("ParseErr", n.parseEmbedded + ";optional")
  }
  function StructField(n: TestNames): Field { Field("Struct", "", true, Nested([DbHostField(n)])) }
  function StructParseErrField(n: TestNames): Field {
    Field("StructParseErr", "", true, Nested([EmbeddedParseErrField(n)]))
  }
  function ParseErrField(n: TestNames): Field { CustomMapField("ParseErr", n.parseErr + ";optional") }

  /** The test file's `TestConfig`. */
  function TestConfig(n: TestNames): seq<Field> {
    [HostField(n), PortField(n), OptionalField(n), DefaultField(n),
     StructField(n), StructParseErrField(n), ParseErrField(n)]
  }

  // ---------------------------------------------------------------------
  // Well-formedness of the test structs

  lemma OptionalFieldWellFormed(f: Field, n: string)
    requires !f.kind.Nested? && !f.kind.Array? && IsToken(n) && f.tag == n + ";optional"
    ensures FieldWellFormed(f)
  {
    OptionalTagTokens(n);
  }

  lemma DefaultFieldWellFormed(f: Field, n: string, v: string)
    requires !f.kind.Nested? && !f.kind.Array? && IsToken(n) && IsToken(v) && f.tag == n + ";default:" + v
    ensures FieldWellFormed(f)
  {
    DefaultTagTokens(n, v);
  }

  lemma PlainFieldWellFormed(f: Field)
    requires !f.kind.Nested? && !f.kind.Array? && IsToken(f.tag)
    ensures FieldWellFormed(f)
  {
    FieldsOfToken(f.tag, SplitTags);
  }

  /** An untagged struct field is well formed when its one field is. */
  lemma UntaggedStructWellFormed(f: Field, inner: Field)
    requires f.tag == "" && f.kind == Nested([inner]) && FieldWellFormed(inner)
    ensures FieldWellFormed(f)
  {
    assert Tokens("") == [];
  }

  lemma LocalhostIsToken()
    ensures IsToken("localhost")
  {
  }

  lemma NamesAreTokens(n: TestNames)
    requires ValidNames(n)
    ensures IsToken(n.host) && IsToken(n.port) && IsToken(n.optional) && IsToken(n.default)
    ensures IsToken(n.dbHost) && IsToken(n.parseEmbedded) && IsToken(n.parseErr)
  {
    var l := NameList(n);
    assert IsToken(l[0]) && IsToken(l[1]) && IsToken(l[2]) && IsToken(l[3]);
    assert IsToken(l[4]) && IsToken(l[5]) && IsToken(l[6]);
  }

  lemma HostAndPortWellFormed(n: TestNames)
    requires ValidNames(n)
    ensures FieldWellFormed(HostField(n)) && FieldWellFormed(PortField(n))
  {
    NamesAreTokens(n);
    PlainFieldWellFormed(HostField(n));
    PlainFieldWellFormed(PortField(n));
  }

  lemma OptionalFieldsWellFormed(n: TestNames)
    requires ValidNames(n)
    ensures FieldWellFormed(OptionalField(n)) && FieldWellFormed(ParseErrField(n))
    ensures FieldWellFormed(StructParseErrField(n))
  {
    NamesAreTokens(n);
    OptionalFieldWellFormed(OptionalField(n), n.optional);
    OptionalFieldWellFormed(ParseErrField(n), n.parseErr);
    OptionalFieldWellFormed(EmbeddedParseErrField(n), n.parseEmbedded);
    UntaggedStructWellFormed(StructParseErrField(n), EmbeddedParseErrField(n));
  }

  lemma DefaultFieldOk(n: TestNames)
    requires ValidNames(n)
    ensures FieldWellFormed(DefaultField(n))
  {
    NamesAreTokens(n);
    KeywordsAreTokens();
    DefaultFieldWellFormed(DefaultField(n), n.default, "default");
  }

  lemma StructFieldOk(n: TestNames)
    requires ValidNames(n)
    ensures FieldWellFormed(StructField(n))
  {
    NamesAreTokens(n);
    LocalhostIsToken();
    DefaultFieldWellFormed(DbHostField(n), n.dbHost, "localhost");
    UntaggedStructWellFormed(StructField(n), DbHostField(n));
  }

  lemma TestConfigWellFormed(n: TestNames)
    requires ValidNames(n)
    ensures AllWellFormed(TestConfig(n))
  {
    HostAndPortWellFormed(n);
    OptionalFieldsWellFormed(n);
    DefaultFieldOk(n);
    StructFieldOk(n);
    var fs := TestConfig(n);
    assert fs[0] == HostField(n) && fs[1] == PortField(n) && fs[2] == OptionalField(n);
    assert fs[3] == DefaultField(n) && fs[4] == StructField(n) && fs[5] == StructParseErrField(n);
    assert fs[6] == ParseErrField(n);
  }

  // ---------------------------------------------------------------------
  // The test cases

  /** TestLoadEnvMissingEnv / TestEnvNotFoundError: with nothing set, the first field's variable is reported. */
  lemma TestLoadEnvMissingEnv(n: TestNames, reg: Registry, scan: Scanner)
    requires ValidNames(n)
    ensures ConfigWellFormed(Config(true, Struct(TestConfig(n))))
    ensures var r := LoadEnv(Config(true, Struct(TestConfig(n))), {}, map[], reg, scan);
            && r.err == Some(EnvNotFound(n.host))
            && Message(r.err.value) == "environment variable not found: " + n.host
            && r.config == Config(true, Struct(TestConfig(n)))
  {
    TestConfigWellFormed(n);
    NamesAreTokens(n);
    var fs := TestConfig(n);
    assert fs[0] == HostField(n);
    MissingVariableFails(HostField(n), n.host, {}, map[], reg, scan);
    FirstFieldStops(fs, {}, map[], reg, scan);
  }

  /** TestConfigStructNotAPointerError: passing the struct by value is refused. */
  lemma TestConfigStructNotAPointerError(n: TestNames, seen: set<string>, env: Env, reg: Registry, scan: Scanner)
    ensures var r := LoadEnv(Config(false, Struct(TestConfig(n))), seen, env, reg, scan);
            && r == Loaded(Config(false, Struct(TestConfig(n))), seen, Some(NotStructPointer))
            && Message(r.err.value) == "config must be a pointer to a struct"
  {
  }

  /** What the test's environment holds for the fields before the two parse-error fields:
      `setTestEnv` sets HOST, PORT and DEFAULT; `TestLoadEnv` leaves DEFAULT unset. */
  predicate TestEnv(n: TestNames, env: Env) {
    && EnvValue(env, n.host) == "localhost" && EnvValue(env, n.port) == "8080"
    && EnvValue(env, n.optional) == "" && EnvValue(env, n.default) in {"", "default"}
    && EnvValue(env, n.dbHost) == ""
  }

  /** The test environment, with the first `k` fields of `TestConfig` loading cleanly. */
  predicate CleanUpTo(n: TestNames, env: Env, k: nat) {
    && k <= 7 && TestEnv(n, env)
    && (k >= 6 ==> EnvValue(env, n.parseEmbedded) == "")
    && (k == 7 ==> EnvValue(env, n.parseErr) == "")
  }

  /** What the converters must do with the test's values. */
  predicate ScansTestValues(reg: Registry, scan: Scanner) {
    && ConverterFor(reg, scan, StringType)("localhost") == Success(Text("localhost"))
    && ConverterFor(reg, scan, IntType)("8080") == Success(Int(8080))
    && ConverterFor(reg, scan, StringType)("default") == Success(Text("default"))
  }

  const LocalhostText: Value := Text("localhost")

  function LoadedHost(n: TestNames): Field { HostField(n).(kind := Scalar(StringType, LocalhostText)) }
  function LoadedPort(n: TestNames): Field { PortField(n).(kind := Scalar(IntType, Int(8080))) }
  function LoadedDefault(n: TestNames): Field { DefaultField(n).(kind := Scalar(StringType, Text("default"))) }
  function LoadedStruct(n: TestNames): Field {
    StructField(n).(kind := Nested([DbHostField(n).(kind := Scalar(StringType, LocalhostText))]))
  }

  /** `TestConfig` after a clean load. */
  function LoadedConfig(n: TestNames): seq<Field> {
    [LoadedHost(n), LoadedPort(n), OptionalField(n), LoadedDefault(n),
     LoadedStruct(n), StructParseErrField(n), ParseErrField(n)]
  }

  /** The names recorded after the first `k` fields of `TestConfig`: each field records one. */
  function SeenBefore(n: TestNames, k: nat): set<string>
    requires k <= 7
  {
    if k == 0 then {} else SeenBefore(n, k - 1) + {NameList(n)[k - 1]}
  }

  /** No name is recorded before its own field is loaded. */
  lemma {:induction false} LaterNamesUnseen(n: TestNames, k: nat)
    requires ValidNames(n) && k <= 7
    ensures forall j :: k <= j < 7 ==> NameList(n)[j] !in SeenBefore(n, k)
  {
    if k > 0 {
      LaterNamesUnseen(n, k - 1);
      var l := NameList(n);
      assert forall j :: k <= j < 7 ==> l[k - 1] != l[j];
    }
  }

  // ---------------------------------------------------------------------
  // Each field of `TestConfig` in the test environment

  lemma HostLoads(n: TestNames, seen: set<string>, env: Env, reg: Registry, scan: Scanner)
    requires ValidNames(n) && TestEnv(n, env) && ScansTestValues(reg, scan) && n.host !in seen
    ensures FieldWellFormed(HostField(n))
    ensures LoadField(HostField(n), seen, env, reg, scan) == FieldLoad(LoadedHost(n), seen + {n.host}, None)
  {
    NamesAreTokens(n);
    ScalarLoaded(HostField(n), n.host, "localhost", seen, env, reg, scan);
  }

  lemma PortLoads(n: TestNames, seen: set<string>, env: Env, reg: Registry, scan: Scanner)
    requires ValidNames(n) && TestEnv(n, env) && ScansTestValues(reg, scan) && n.port !in seen
    ensures FieldWellFormed(PortField(n))
    ensures LoadField(PortField(n), seen, env, reg, scan) == FieldLoad(LoadedPort(n), seen + {n.port}, None)
  {
    NamesAreTokens(n);
    ScalarLoaded(PortField(n), n.port, "8080", seen, env, reg, scan);
  }

  lemma OptionalLoads(n: TestNames, seen: set<string>, env: Env, reg: Registry, scan: Scanner)
    requires ValidNames(n) && TestEnv(n, env) && n.optional !in seen
    ensures FieldWellFormed(OptionalField(n))
    ensures LoadField(OptionalField(n), seen, env, reg, scan) == FieldLoad(OptionalField(n), seen + {n.optional}, None)
  {
    OptionalFieldsWellFormed(n);
    NamesAreTokens(n);
    OptionalFieldUntouched(OptionalField(n), n.optional, seen, env, reg, scan);
  }

  /** `Default` holds "default" after loading, from the environment or from its tag. */
  lemma DefaultFieldLoads(n: TestNames, seen: set<string>, env: Env, reg: Registry, scan: Scanner)
    requires ValidNames(n) && TestEnv(n, env) && ScansTestValues(reg, scan) && n.default !in seen
    ensures FieldWellFormed(DefaultField(n))
    ensures LoadField(DefaultField(n), seen, env, reg, scan) == FieldLoad(LoadedDefault(n), seen + {n.default}, None)
  {
    NamesAreTokens(n);
    KeywordsAreTokens();
    var f := DefaultField(n);
    if EnvValue(env, n.default) == "" {
      DefaultApplied(f, n.default, "default", seen, env, reg, scan);
    } else {
      DefaultOverridden(f, n.default, "default", "default", seen, env, reg, scan);
    }
  }

  lemma StructLoads(n: TestNames, seen: set<string>, env: Env, reg: Registry, scan: Scanner)
    requires ValidNames(n) && TestEnv(n, env) && ScansTestValues(reg, scan) && n.dbHost !in seen
    ensures FieldWellFormed(StructField(n))
    ensures LoadField(StructField(n), seen, env, reg, scan) == FieldLoad(LoadedStruct(n), seen + {n.dbHost}, None)
  {
    StructFieldOk(n);
    NamesAreTokens(n);
    LocalhostIsToken();
    DefaultApplied(DbHostField(n), n.dbHost, "localhost", seen, env, reg, scan);
    UntaggedStructLoads(StructField(n), DbHostField(n), seen, env, reg, scan);
  }

  lemma StructParseErrLoads(n: TestNames, seen: set<string>, env: Env, reg: Registry, scan: Scanner)
    requires ValidNames(n) && EnvValue(env, n.parseEmbedded) == "" && n.parseEmbedded !in seen
    ensures FieldWellFormed(StructParseErrField(n))
    ensures LoadField(StructParseErrField(n), seen, env, reg, scan)
         == FieldLoad(StructParseErrField(n), seen + {n.parseEmbedded}, None)
  {
    OptionalFieldsWellFormed(n);
    NamesAreTokens(n);
    OptionalFieldWellFormed(EmbeddedParseErrField(n), n.parseEmbedded);
    OptionalFieldUntouched(EmbeddedParseErrField(n), n.parseEmbedded, seen, env, reg, scan);
    UntaggedStructLoads(StructParseErrField(n), EmbeddedParseErrField(n), seen, env, reg, scan);
  }

  lemma ParseErrLoads(n: TestNames, seen: set<string>, env: Env, reg: Registry, scan: Scanner)
    requires ValidNames(n) && EnvValue(env, n.parseErr) == "" && n.parseErr !in seen
    ensures FieldWellFormed(ParseErrField(n))
    ensures LoadField(ParseErrField(n), seen, env, reg, scan) == FieldLoad(ParseErrField(n), seen + {n.parseErr}, None)
  {
    OptionalFieldsWellFormed(n);
    NamesAreTokens(n);
    OptionalFieldUntouched(ParseErrField(n), n.parseErr, seen, env, reg, scan);
  }

  /** Field `k` of `TestConfig` loads cleanly and records the `k`-th name. */
  lemma FieldLoadsCleanly(n: TestNames, k: nat, env: Env, reg: Registry, scan: Scanner)
    requires ValidNames(n) && k < 7 && CleanUpTo(n, env, k + 1) && ScansTestValues(reg, scan)
    ensures AllWellFormed(TestConfig(n))
    ensures LoadField(TestConfig(n)[k], SeenBefore(n, k), env, reg, scan)
         == FieldLoad(LoadedConfig(n)[k], SeenBefore(n, k + 1), None)
  {
    TestConfigWellFormed(n);
    LaterNamesUnseen(n, k);
    var seen, fs, ls := SeenBefore(n, k), TestConfig(n), LoadedConfig(n);
    assert NameList(n)[k] !in seen;
    assert SeenBefore(n, k + 1) == seen + {NameList(n)[k]};
    if k == 0 {
      assert fs[0] == HostField(n) && ls[0] == LoadedHost(n);
      HostLoads(n, seen, env, reg, scan);
    } else if k == 1 {
      assert fs[1] == PortField(n) && ls[1] == LoadedPort(n);
      PortLoads(n, seen, env, reg, scan);
    } else if k == 2 {
      assert fs[2] == OptionalField(n) && ls[2] == OptionalField(n);
      OptionalLoads(n, seen, env, reg, scan);
    } else if k == 3 {
      assert fs[3] == DefaultField(n) && ls[3] == LoadedDefault(n);
      DefaultFieldLoads(n, seen, env, reg, scan);
    } else if k == 4 {
      assert fs[4] == StructField(n) && ls[4] == LoadedStruct(n);
      StructLoads(n, seen, env, reg, scan);
    } else if k == 5 {
      assert fs[5] == StructParseErrField(n) && ls[5] == StructParseErrField(n);
      StructParseErrLoads(n, seen, env, reg, scan);
    } else {
      assert fs[6] == ParseErrField(n) && ls[6] == ParseErrField(n);
      ParseErrLoads(n, seen, env, reg, scan);
    }
  }

  /** The names recorded before each field of `TestConfig`, and after the last. */
  function Seens(n: TestNames): (r: seq<set<string>>)
    ensures |r| == 8 && forall k :: 0 <= k < 8 ==> r[k] == SeenBefore(n, k)
  {
    seq(8, k requires 0 <= k < 8 => SeenBefore(n, k))
  }

  /** Walking `TestConfig` loads its first `k` fields cleanly, then continues from the `k`-th. */
  lemma WalkPrefix(n: TestNames, k: nat, env: Env, reg: Registry, scan: Scanner)
    requires ValidNames(n) && CleanUpTo(n, env, k) && ScansTestValues(reg, scan)
    ensures AllWellFormed(TestConfig(n)) && AllWellFormed(TestConfig(n)[k..])
    ensures var t := LoadFields(TestConfig(n)[k..], SeenBefore(n, k), env, reg, scan);
            LoadFields(TestConfig(n), {}, env, reg, scan) == Walked(LoadedConfig(n)[..k] + t.fields, t.seen, t.err)
  {
    TestConfigWellFormed(n);
    var fs, seens := TestConfig(n), Seens(n);
    forall i | 0 <= i < k
      ensures LoadField(fs[i], seens[i], env, reg, scan) == FieldLoad(LoadedConfig(n)[i], seens[i + 1], None)
    {
      FieldLoadsCleanly(n, i, env, reg, scan);
    }
    assert 0 <= k <= 7;
    forall i | 0 <= i < k
      ensures LoadsCleanly(fs, LoadedConfig(n), seens, i, env, reg, scan)
    {
    }
    CleanRun(fs, LoadedConfig(n), seens, 0, k, env, reg, scan);
    assert fs[0..] == fs && LoadedConfig(n)[0..k] == LoadedConfig(n)[..k];
  }

  /** The set of all seven names. */
  function AllNames(n: TestNames): set<string> {
    {n.host, n.port, n.optional, n.default, n.dbHost, n.parseEmbedded, n.parseErr}
  }

  lemma SeenBeforeAll(n: TestNames)
    ensures SeenBefore(n, 7) == AllNames(n)
    ensures SeenBefore(n, 6) + {n.parseErr} == AllNames(n)
    ensures SeenBefore(n, 5) + {n.parseEmbedded} == SeenBefore(n, 6)
  {
    assert SeenBefore(n, 1) == {n.host};
    assert SeenBefore(n, 2) == {n.host, n.port};
    assert SeenBefore(n, 3) == {n.host, n.port, n.optional};
    assert SeenBefore(n, 4) == {n.host, n.port, n.optional, n.default};
    assert SeenBefore(n, 5) == {n.host, n.port, n.optional, n.default, n.dbHost};
    assert SeenBefore(n, 6) == {n.host, n.port, n.optional, n.default, n.dbHost, n.parseEmbedded};
  }

  /** The walk of `TestConfig` in the test environment loads every field. */
  lemma CleanWalk(n: TestNames, env: Env, reg: Registry, scan: Scanner)
    requires ValidNames(n) && CleanUpTo(n, env, 7) && ScansTestValues(reg, scan)
    ensures AllWellFormed(TestConfig(n))
    ensures LoadFields(TestConfig(n), {}, env, reg, scan) == Walked(LoadedConfig(n), AllNames(n), None)
  {
    WalkPrefix(n, 7, env, reg, scan);
    assert TestConfig(n)[7..] == [] && LoadedConfig(n)[..7] == LoadedConfig(n);
    SeenBeforeAll(n);
  }

  /** TestLoadEnv: with HOST and PORT set (and DEFAULT set or not), every field loads:
      Host "localhost", Port 8080, Default "default", Struct.Host "localhost" from its
      default, the optional fields untouched, and every name recorded. */
  lemma TestLoadEnv(n: TestNames, env: Env, reg: Registry, scan: Scanner)
    requires ValidNames(n) && CleanUpTo(n, env, 7) && ScansTestValues(reg, scan)
    ensures ConfigWellFormed(Config(true, Struct(TestConfig(n))))
    ensures LoadEnv(Config(true, Struct(TestConfig(n))), {}, env, reg, scan)
         == Loaded(Config(true, Struct(LoadedConfig(n))), AllNames(n), None)
  {
    CleanWalk(n, env, reg, scan);
  }

  /** The test's custom map type has no converter, and `fmt.Sscan` refuses a pointer
      to a map type, naming it by its package, `goloadenv`. (load_config_test.go:127
      and :163 expect "*load_config.CustomMapType" here, a text this package does
      not produce.) */
  const CannotScanCustomMap: string := "can't scan type: *goloadenv.CustomMapType"

  predicate RefusesCustomMap(reg: Registry, scan: Scanner, v: string) {
    ConverterFor(reg, scan, CustomMapType)(v) == Failure(CannotScanCustomMap)
  }

  lemma ParseErrFails(n: TestNames, v: string, seen: set<string>, env: Env, reg: Registry, scan: Scanner)
    requires ValidNames(n) && n.parseErr !in seen && EnvValue(env, n.parseErr) == v && v != ""
    requires RefusesCustomMap(reg, scan, v)
    ensures FieldWellFormed(ParseErrField(n))
    ensures LoadField(ParseErrField(n), seen, env, reg, scan)
         == FieldLoad(ParseErrField(n), seen + {n.parseErr}, Some(Parse(v, n.parseErr, Conversion(CannotScanCustomMap))))
  {
    NamesAreTokens(n);
    OptionalScalarSet(ParseErrField(n), n.parseErr, v, seen, env, reg, scan);
  }

  lemma ParseErrTail(n: TestNames, v: string, env: Env, reg: Registry, scan: Scanner)
    requires ValidNames(n) && EnvValue(env, n.parseErr) == v && v != "" && RefusesCustomMap(reg, scan, v)
    ensures AllWellFormed(TestConfig(n)[6..])
    ensures LoadFields(TestConfig(n)[6..], SeenBefore(n, 6), env, reg, scan)
         == Walked([ParseErrField(n)], AllNames(n), Some(Parse(v, n.parseErr, Conversion(CannotScanCustomMap))))
  {
    var fs := TestConfig(n)[6..];
    assert fs == [ParseErrField(n)] && fs[1..] == [];
    LaterNamesUnseen(n, 6);
    assert NameList(n)[6] == n.parseErr;
    ParseErrFails(n, v, SeenBefore(n, 6), env, reg, scan);
    FirstErrorWins(fs, SeenBefore(n, 6), env, reg, scan);
    SeenBeforeAll(n);
  }

  lemma LoadedConfigSplits(n: TestNames)
    ensures LoadedConfig(n)[..6] + [ParseErrField(n)] == LoadedConfig(n)
    ensures LoadedConfig(n)[..5] + [StructParseErrField(n), ParseErrField(n)] == LoadedConfig(n)
  {
  }

  lemma ParseErrWalk(n: TestNames, v: string, env: Env, reg: Registry, scan: Scanner)
    requires ValidNames(n) && CleanUpTo(n, env, 6) && ScansTestValues(reg, scan)
    requires EnvValue(env, n.parseErr) == v && v != "" && RefusesCustomMap(reg, scan, v)
    ensures AllWellFormed(TestConfig(n))
    ensures LoadFields(TestConfig(n), {}, env, reg, scan)
         == Walked(LoadedConfig(n), AllNames(n), Some(Parse(v, n.parseErr, Conversion(CannotScanCustomMap))))
  {
    WalkPrefix(n, 6, env, reg, scan);
    ParseErrTail(n, v, env, reg, scan);
    LoadedConfigSplits(n);
  }

  /** TestEnvParseError: a PARSE_ERR value the custom map type cannot take fails the
      last field, after every other field has loaded. */
  lemma TestEnvParseError(n: TestNames, v: string, env: Env, reg: Registry, scan: Scanner)
    requires ValidNames(n) && CleanUpTo(n, env, 6) && ScansTestValues(reg, scan)
    requires EnvValue(env, n.parseErr) == v && v != "" && RefusesCustomMap(reg, scan, v)
    ensures ConfigWellFormed(Config(true, Struct(TestConfig(n))))
    ensures var r := LoadEnv(Config(true, Struct(TestConfig(n))), {}, env, reg, scan);
            && r == Loaded(Config(true, Struct(LoadedConfig(n))), AllNames(n),
                           Some(Parse(v, n.parseErr, Conversion(CannotScanCustomMap))))
            && Message(r.err.value)
               == "error parsing '" + v + "' as environment variable " + n.parseErr + ": " + CannotScanCustomMap
  {
    ParseErrWalk(n, v, env, reg, scan);
    ParseErrorText(v, n.parseErr);
  }

  lemma ParseErrorText(v: string, name: string)
    ensures Message(Parse(v, name, Conversion(CannotScanCustomMap)))
         == "error parsing '" + v + "' as environment variable " + name + ": " + CannotScanCustomMap
  {
  }

  lemma StructParseErrFails(n: TestNames, v: string, seen: set<string>, env: Env, reg: Registry, scan: Scanner)
    requires ValidNames(n) && n.parseEmbedded !in seen && EnvValue(env, n.parseEmbedded) == v && v != ""
    requires RefusesCustomMap(reg, scan, v)
    ensures FieldWellFormed(StructParseErrField(n))
    ensures LoadField(StructParseErrField(n), seen, env, reg, scan)
         == FieldLoad(StructParseErrField(n), seen + {n.parseEmbedded},
                      Some(NestedStruct("ParseErr", Parse(v, n.parseEmbedded, Conversion(CannotScanCustomMap)))))
  {
    OptionalFieldsWellFormed(n);
    NamesAreTokens(n);
    OptionalScalarSet(EmbeddedParseErrField(n), n.parseEmbedded, v, seen, env, reg, scan);
    UntaggedStructLoads(StructParseErrField(n), EmbeddedParseErrField(n), seen, env, reg, scan);
  }

  lemma StructParseErrTail(n: TestNames, v: string, env: Env, reg: Registry, scan: Scanner)
    requires ValidNames(n) && EnvValue(env, n.parseEmbedded) == v && v != "" && RefusesCustomMap(reg, scan, v)
    ensures AllWellFormed([StructParseErrField(n), ParseErrField(n)])
    ensures LoadFields([StructParseErrField(n), ParseErrField(n)], SeenBefore(n, 5), env, reg, scan)
         == Walked([StructParseErrField(n), ParseErrField(n)], SeenBefore(n, 6),
                   Some(NestedStruct("ParseErr", Parse(v, n.parseEmbedded, Conversion(CannotScanCustomMap)))))
  {
    OptionalFieldsWellFormed(n);
    LaterNamesUnseen(n, 5);
    assert NameList(n)[5] == n.parseEmbedded;
    StructParseErrFails(n, v, SeenBefore(n, 5), env, reg, scan);
    FirstOfTwoFails(StructParseErrField(n), ParseErrField(n), SeenBefore(n, 5), env, reg, scan);
    assert SeenBefore(n, 6) == SeenBefore(n, 5) + {NameList(n)[5]};
  }

  lemma StructParseErrWalk(n: TestNames, v: string, env: Env, reg: Registry, scan: Scanner)
    requires ValidNames(n) && CleanUpTo(n, env, 5) && ScansTestValues(reg, scan)
    requires EnvValue(env, n.parseEmbedded) == v && v != "" && RefusesCustomMap(reg, scan, v)
    ensures AllWellFormed(TestConfig(n))
    ensures LoadFields(TestConfig(n), {}, env, reg, scan)
         == Walked(LoadedConfig(n), SeenBefore(n, 6),
                   Some(NestedStruct("ParseErr", Parse(v, n.parseEmbedded, Conversion(CannotScanCustomMap)))))
  {
    TestConfigTail(n);
    WalkPrefix(n, 5, env, reg, scan);
    StructParseErrTail(n, v, env, reg, scan);
    LoadedConfigSplits(n);
  }

  lemma TestConfigTail(n: TestNames)
    ensures TestConfig(n)[5..] == [StructParseErrField(n), ParseErrField(n)]
    ensures TestConfig(n)[6..] == [ParseErrField(n)]
  {
  }

  lemma EmbeddedErrorText(v: string, name: string)
    ensures Message(NestedStruct("ParseErr", Parse(v, name, Conversion(CannotScanCustomMap))))
         == "error loading nested struct '" + "ParseErr" + "': "
            + ("error parsing '" + v + "' as environment variable " + name + ": " + CannotScanCustomMap)
  {
  }

  /** TestEmbeddedStructParseError: the failure inside the nested struct is reported
      as a nested-struct error naming its field, and the walk stops there. */
  lemma TestEmbeddedStructParseError(n: TestNames, v: string, env: Env, reg: Registry, scan: Scanner)
    requires ValidNames(n) && CleanUpTo(n, env, 5) && ScansTestValues(reg, scan)
    requires EnvValue(env, n.parseEmbedded) == v && v != "" && RefusesCustomMap(reg, scan, v)
    ensures ConfigWellFormed(Config(true, Struct(TestConfig(n))))
    ensures var r := LoadEnv(Config(true, Struct(TestConfig(n))), {}, env, reg, scan);
            && r == Loaded(Config(true, Struct(LoadedConfig(n))), SeenBefore(n, 6),
                           Some(NestedStruct("ParseErr", Parse(v, n.parseEmbedded, Conversion(CannotScanCustomMap)))))
            && Message(r.err.value)
               == "error loading nested struct '" + "ParseErr" + "': "
                  + ("error parsing '" + v + "' as environment variable " + n.parseEmbedded + ": " + CannotScanCustomMap)
  {
    StructParseErrWalk(n, v, env, reg, scan);
    EmbeddedErrorText(v, n.parseEmbedded);
  }

  // ---------------------------------------------------------------------
  // Structs of the remaining test cases

  /** TestDuplicateTagNameError: three fields tagged with one name; the second fails. */
  lemma TestDuplicateTagNameError(name: string, env: Env, reg: Registry, scan: Scanner)
    requires IsToken(name) && EnvValue(env, name) == "localhost" && ScansTestValues(reg, scan)
    ensures var fs := [StringField("Host", name), StringField("Host2", name), StringField("Host3", name)];
            && ConfigWellFormed(Config(true, Struct(fs)))
            && var r := LoadEnv(Config(true, Struct(fs)), {}, env, reg, scan);
               && r.err == Some(BadTag("Host2", DuplicateTag(name)))
               && EndsWith(Message(r.err.value), ": duplicate tag: " + name)
  {
    var a, b, c := StringField("Host", name), StringField("Host2", name), StringField("Host3", name);
    PlainFieldWellFormed(a);
    PlainFieldWellFormed(b);
    PlainFieldWellFormed(c);
    ScalarLoaded(a, name, "localhost", {}, env, reg, scan);
    DuplicateNameFails(a, b, [c], name, {}, env, reg, scan);
    assert [a, b] + [c] == [a, b, c];
  }

  /** A list literal "[e1,e2,...]". */
  function ListText(parts: seq<string>): string {
    "[" + Join(parts, ',') + "]"
  }

  /** The list of the slice and array tests: "[1,2,3,4,5]" lists the texts 1 to 5. */
  const IntTexts: seq<string> := ["1", "2", "3", "4", "5"]

  lemma IntListLiteral()
    ensures ListText(IntTexts) == "[1,2,3,4,5]"
    ensures |IntTexts| == 5 && forall i :: 0 <= i < |IntTexts| ==> ',' !in IntTexts[i]
  {
    assert Join(IntTexts, ',') == "1,2,3,4,5";
  }

  /** Comma-free element texts, each converting to the matching value. */
  predicate ListOf(parts: seq<string>, values: seq<Value>, t: TypeId, reg: Registry, scan: Scanner) {
    && |parts| >= 1 && |parts| == |values|
    && (forall i :: 0 <= i < |parts| ==> ',' !in parts[i])
    && (forall i :: 0 <= i < |parts| ==> ConverterFor(reg, scan, t)(parts[i]) == Success(values[i]))
  }

  lemma ElementsConvert(parts: seq<string>, values: seq<Value>, t: TypeId, env: string, reg: Registry, scan: Scanner)
    requires ListOf(parts, values, t, reg, scan)
    ensures forall i :: 0 <= i < |parts| ==> SetField(t, parts[i], env, true, reg, scan) == Success(values[i])
  {
  }

  function IntSliceField(name: string, elems: seq<Value>): Field {
    Field("IntSlice", name, true, Slice(IntType, elems))
  }

  function IntArrayField(name: string, elems: seq<Value>): Field {
    Field("IntArray", name, true, Array(IntType, elems))
  }

  /** TestSliceField: a list literal loads into a []int as exactly its values, whatever the slice held. */
  lemma TestSliceField(name: string, parts: seq<string>, values: seq<Value>, elems: seq<Value>,
                       env: Env, reg: Registry, scan: Scanner)
    requires IsToken(name) && ListOf(parts, values, IntType, reg, scan) && EnvValue(env, name) == ListText(parts)
    ensures ConfigWellFormed(Config(true, Struct([IntSliceField(name, elems)])))
    ensures LoadEnv(Config(true, Struct([IntSliceField(name, elems)])), {}, env, reg, scan)
         == Loaded(Config(true, Struct([IntSliceField(name, values)])), {name}, None)
  {
    var f := IntSliceField(name, elems);
    ElementsConvert(parts, values, IntType, name, reg, scan);
    SliceFills(f, name, parts, values, {}, env, reg, scan);
    assert f.(kind := Slice(IntType, values)) == IntSliceField(name, values);
    OneFieldStruct(f, {}, env, reg, scan);
  }

  /** TestArrayField: a list literal of n values fills an [n]int with exactly those values. */
  lemma TestArrayField(name: string, parts: seq<string>, values: seq<Value>, elems: seq<Value>,
                       env: Env, reg: Registry, scan: Scanner)
    requires IsToken(name) && ListOf(parts, values, IntType, reg, scan) && EnvValue(env, name) == ListText(parts)
    requires |elems| == |parts|
    ensures ConfigWellFormed(Config(true, Struct([IntArrayField(name, elems)])))
    ensures LoadEnv(Config(true, Struct([IntArrayField(name, elems)])), {}, env, reg, scan)
         == Loaded(Config(true, Struct([IntArrayField(name, values)])), {name}, None)
  {
    var f := IntArrayField(name, elems);
    ElementsConvert(parts, values, IntType, name, reg, scan);
    ArrayFills(f, name, parts, values, {}, env, reg, scan);
    assert f.(kind := Array(IntType, values)) == IntArrayField(name, values);
    OneFieldStruct(f, {}, env, reg, scan);
  }

  /** A list longer than the array fails with "array size overflow" and leaves the array as it was. */
  lemma ArrayTooShort(name: string, parts: seq<string>, elems: seq<Value>, env: Env, reg: Registry, scan: Scanner)
    requires IsToken(name) && EnvValue(env, name) == ListText(parts)
    requires 0 < |elems| < |parts| && forall i :: 0 <= i < |parts| ==> ',' !in parts[i]
    ensures ConfigWellFormed(Config(true, Struct([IntArrayField(name, elems)])))
    ensures LoadEnv(Config(true, Struct([IntArrayField(name, elems)])), {}, env, reg, scan)
         == Loaded(Config(true, Struct([IntArrayField(name, elems)])), {name},
                   Some(Parse(ListText(parts), name, SizeOverflow(|elems|, |parts|))))
  {
    var f := IntArrayField(name, elems);
    ArrayOverflows(f, name, parts, {}, env, reg, scan);
    OneFieldStruct(f, {}, env, reg, scan);
  }
}

=== FILE: schema.dfy ===
/**
 The configuration structure the loader fills, with Go reflection replaced by
 an explicit schema: every field carries its declared name, its `env` tag
 text, whether reflection may set it, and a kind holding its current contents.
 */
module Schema {

  /** A Go type, identified by package path and name. A named type such as
      `CustomMapType` is a different identifier from its underlying type. */
  datatype TypeId = TypeId(pkg: string, name: string)

  /** A value held by a field. Conversions are parameters of the model, so a
      value is only compared for equality; `Zero` is the zero value of a type. */
  datatype Value =
    | Zero(typeId: TypeId)
    | Int(i: int)
    | Text(s: string)
    | Other(typeId: TypeId, repr: string)

  datatype Kind =
    | Scalar(typeId: TypeId, value: Value)        // any non-struct, non-collection type
    | Nested(fields: seq<Field>)                   // a struct-kind field
    | Array(elemType: TypeId, elems: seq<Value>)   // `[n]T`; n is |elems| and never changes
    | Slice(elemType: TypeId, elems: seq<Value>)   // `[]T`

  /** One struct field: Go name, the value of its `env` tag, whether reflection may set it. */
  datatype Field = Field(name: string, tag: string, settable: bool, kind: Kind)

  /** What `LoadEnv` may be handed: it must be a pointer, and point at a struct. */
  datatype Target = Struct(fields: seq<Field>) | NotStruct(typeId: TypeId)
  datatype Config = Config(isPointer: bool, target: Target)

  /** Same declaration: loading may change contents but never names, tags, types or array lengths. */
  predicate SameShape(f: Field, g: Field) {
    && f.name == g.name && f.tag == g.tag && f.settable == g.settable
    && match f.kind
       case Scalar(t, _) => g.kind.Scalar? && g.kind.typeId == t
       case Array(t, e) => g.kind.Array? && g.kind.elemType == t && |g.kind.elems| == |e|
       case Slice(t, _) => g.kind.Slice? && g.kind.elemType == t
       case Nested(fs) => g.kind.Nested? && AllSameShape(fs, g.kind.fields)
  }

  predicate AllSameShape(fs: seq<Field>, gs: seq<Field>) {
    |fs| == |gs| && forall i :: 0 <= i < |fs| ==> SameShape(fs[i], gs[i])
  }

  lemma {:induction false} SameShapeReflexive(f: Field)
    ensures SameShape(f, f)
    decreases f
  {
    if f.kind.Nested? {
      AllSameShapeReflexive(f.kind.fields);
    }
  }

  lemma {:induction false} AllSameShapeReflexive(fs: seq<Field>)
    ensures AllSameShape(fs, fs)
    decreases fs
  {
    forall i | 0 <= i < |fs|
      ensures SameShape(fs[i], fs[i])
    {
      SameShapeReflexive(fs[i]);
    }
  }

  /** Shapes agree position by position, so they extend by a matching head. */
  lemma AllSameShapeCons(f: Field, fs: seq<Field>, g: Field, gs: seq<Field>)
    requires SameShape(f, g) && AllSameShape(fs, gs)
    ensures AllSameShape([f] + fs, [g] + gs)
  {
  }
}

=== FILE: strings.dfy ===
/**
 The three helpers of Go's standard library that the loader relies on:
 `strings.FieldsFunc` (tag splitting), `strings.Split` (array literals) and
 the `%d` verb of `fmt` (the overflow message). Go strings are byte strings;
 every character here stands for one byte.
 */
module Strings {

  /** No character of `s` satisfies `isSep`. */
  predicate NoneMatch(s: string, isSep: char -> bool) {
    forall i :: 0 <= i < |s| ==> !isSep(s[i])
  }

  /** Length of the longest prefix of `s` free of separators. */
  function RunLength(s: string, isSep: char -> bool): (k: nat)
    ensures k <= |s|
    ensures NoneMatch(s[..k], isSep)
    ensures k < |s| ==> isSep(s[k])
  {
    if s == [] || isSep(s[0]) then 0 else 1 + RunLength(s[1..], isSep)
  }

  /** `strings.FieldsFunc`: the maximal non-empty runs of non-separator characters, in order. */
  function Fields(s: string, isSep: char -> bool): (r: seq<string>)
    ensures forall i :: 0 <= i < |r| ==> r[i] != "" && NoneMatch(r[i], isSep)
    decreases |s|
  {
    if s == [] then []
    else if isSep(s[0]) then Fields(s[1..], isSep)
    else
      var k := RunLength(s, isSep);
      [s[..k]] + Fields(s[k..], isSep)
  }

  /** `s` with every separator character deleted: what the fields of `s` must add up to. */
  function Strip(s: string, isSep: char -> bool): string {
    if s == [] then [] else (if isSep(s[0]) then [] else [s[0]]) + Strip(s[1..], isSep)
  }

  function Concat(parts: seq<string>): string {
    if parts == [] then [] else parts[0] + Concat(parts[1..])
  }

  /** Index of the first `c` in `s`, or `|s|` when there is none. */
  function IndexOf(s: string, c: char): (k: nat)
    ensures k <= |s|
    ensures c !in s[..k]
    ensures k < |s| ==> s[k] == c
  {
    if s == [] then 0 else if s[0] == c then 0 else 1 + IndexOf(s[1..], c)
  }

  /** `strings.Split(s, string(sep))`: the pieces between separators, including empty ones. */
  function Split(s: string, sep: char): (r: seq<string>)
    ensures |r| >= 1
    ensures forall i :: 0 <= i < |r| ==> sep !in r[i]
    decreases |s|
  {
    var k := IndexOf(s, sep);
    if k == |s| then [s] else [s[..k]] + Split(s[k + 1..], sep)
  }

  /** `strings.Join(parts, string(sep))`. */
  function Join(parts: seq<string>, sep: char): string {
    if |parts| == 0 then ""
    else if |parts| == 1 then parts[0]
    else parts[0] + [sep] + Join(parts[1..], sep)
  }

  /** Joins `parts` putting `seps[i]` between `parts[i]` and `parts[i + 1]`. */
  function Interleave(parts: seq<string>, seps: seq<char>): string
    requires |parts| == |seps| + 1
  {
    if |seps| == 0 then parts[0]
    else parts[0] + [seps[0]] + Interleave(parts[1..], seps[1..])
  }

  predicate EndsWith(s: string, suffix: string) {
    |suffix| <= |s| && s[|s| - |suffix|..] == suffix
  }

  function Digit(d: nat): (c: char)
    requires d < 10
  {
    "0123456789"[d]
  }

  /** Decimal rendering of a natural number, as `%d` prints it. */
  function NatToString(n: nat): (r: string)
    ensures r != ""
    ensures forall i :: 0 <= i < |r| ==> '0' <= r[i] <= '9'
    ensures |r| > 1 ==> r[0] != '0'
  {
    if n < 10 then [Digit(n)] else NatToString(n / 10) + [Digit(n % 10)]
  }

  /** Reads a string of decimal digits back as a number. */
  function DecimalValue(s: string): nat
    requires forall i :: 0 <= i < |s| ==> '0' <= s[i] <= '9'
  {
    if s == [] then 0 else 10 * DecimalValue(s[..|s| - 1]) + (s[|s| - 1] - '0') as nat
  }

  // ---------------------------------------------------------------------
  // FieldsFunc

  lemma {:induction false} RunLengthOfPrefix(a: string, c: char, b: string, isSep: char -> bool)
    requires isSep(c)
    ensures RunLength(a + [c] + b, isSep) == RunLength(a, isSep)
    decreases |a|
  {
    if a == [] || isSep(a[0]) {
    } else {
      assert (a + [c] + b)[1..] == a[1..] + [c] + b;
      RunLengthOfPrefix(a[1..], c, b, isSep);
    }
  }

  /** A separator character splits the fields of its two sides apart. */
  lemma {:induction false} FieldsAroundSeparator(a: string, c: char, b: string, isSep: char -> bool)
    requires isSep(c)
    ensures Fields(a + [c] + b, isSep) == Fields(a, isSep) + Fields(b, isSep)
    decreases |a|
  {
    var s := a + [c] + b;
    if a == [] {
      assert s == [c] + b;
      assert s[1..] == b;
    } else if isSep(a[0]) {
      assert s[1..] == a[1..] + [c] + b;
      FieldsAroundSeparator(a[1..], c, b, isSep);
    } else {
      var k := RunLength(s, isSep);
      RunLengthOfPrefix(a, c, b, isSep);
      assert s[..k] == a[..k];
      assert s[k..] == a[k..] + [c] + b;
      FieldsAroundSeparator(a[k..], c, b, isSep);
    }
  }

  /** A non-empty separator-free string is a single field. */
  lemma FieldsOfToken(t: string, isSep: char -> bool)
    requires t != "" && NoneMatch(t, isSep)
    ensures Fields(t, isSep) == [t]
  {
    var k := RunLength(t, isSep);
    assert k == |t|;
    assert t[k..] == [];
    assert t[..k] == t;
  }

  /** Round trip: the fields of tokens joined by separators are the tokens. */
  lemma {:induction false} FieldsOfInterleave(parts: seq<string>, seps: seq<char>, isSep: char -> bool)
    requires |parts| == |seps| + 1
    requires forall i :: 0 <= i < |parts| ==> parts[i] != "" && NoneMatch(parts[i], isSep)
    requires forall i :: 0 <= i < |seps| ==> isSep(seps[i])
    ensures Fields(Interleave(parts, seps), isSep) == parts
    decreases |seps|
  {
    FieldsOfToken(parts[0], isSep);
    if |seps| > 0 {
      FieldsAroundSeparator(parts[0], seps[0], Interleave(parts[1..], seps[1..]), isSep);
      FieldsOfInterleave(parts[1..], seps[1..], isSep);
      assert parts == [parts[0]] + parts[1..];
    }
  }

  lemma {:induction false} StripAppend(a: string, b: string, isSep: char -> bool)
    ensures Strip(a + b, isSep) == Strip(a, isSep) + Strip(b, isSep)
    decreases |a|
  {
    if a != [] {
      assert (a + b)[1..] == a[1..] + b;
      StripAppend(a[1..], b, isSep);
    } else {
      assert a + b == b;
    }
  }

  lemma {:induction false} StripClean(a: string, isSep: char -> bool)
    requires NoneMatch(a, isSep)
    ensures Strip(a, isSep) == a
    decreases |a|
  {
    if a != [] {
      StripClean(a[1..], isSep);
    }
  }

  /** FieldsFunc loses only separators: the fields, concatenated, are the input without them. */
  lemma {:induction false} FieldsKeepEveryOtherChar(s: string, isSep: char -> bool)
    ensures Concat(Fields(s, isSep)) == Strip(s, isSep)
    decreases |s|
  {
    if s == [] {
    } else if isSep(s[0]) {
      FieldsKeepEveryOtherChar(s[1..], isSep);
    } else {
      var k := RunLength(s, isSep);
      assert s == s[..k] + s[k..];
      StripAppend(s[..k], s[k..], isSep);
      StripClean(s[..k], isSep);
      FieldsKeepEveryOtherChar(s[k..], isSep);
      var r := Fields(s, isSep);
      assert r == [s[..k]] + Fields(s[k..], isSep);
      assert r[1..] == Fields(s[k..], isSep);
    }
  }

  // ---------------------------------------------------------------------
  // Split / Join

  /** Joining the pieces again restores the input. */
  lemma {:induction false} JoinSplit(s: string, sep: char)
    ensures Join(Split(s, sep), sep) == s
    decreases |s|
  {
    var k := IndexOf(s, sep);
    if k < |s| {
      var rest := Split(s[k + 1..], sep);
      JoinSplit(s[k + 1..], sep);
      var r := Split(s, sep);
      assert r == [s[..k]] + rest;
      assert r[1..] == rest;
      assert s == s[..k] + [sep] + s[k + 1..];
    }
  }

  /** There is one more piece than there are separators. */
  lemma {:induction false} SplitCount(s: string, sep: char)
    ensures |Split(s, sep)| == multiset(s)[sep] + 1
    decreases |s|
  {
    var k := IndexOf(s, sep);
    if k == |s| {
      assert s == s[..k];
      assert sep !in multiset(s);
    } else {
      SplitCount(s[k + 1..], sep);
      assert s == s[..k] + [sep] + s[k + 1..];
      assert sep !in multiset(s[..k]);
      assert multiset(s) == multiset(s[..k]) + multiset([sep]) + multiset(s[k + 1..]);
    }
  }

  /** Round trip the other way: separator-free pieces come back unchanged. */
  lemma {:induction false} SplitJoin(parts: seq<string>, sep: char)
    requires |parts| >= 1
    requires forall i :: 0 <= i < |parts| ==> sep !in parts[i]
    ensures Split(Join(parts, sep), sep) == parts
    decreases |parts|
  {
    var s := Join(parts, sep);
    if |parts| == 1 {
      assert IndexOf(s, sep) == |s| by {
        IndexOfAbsent(s, sep);
      }
    } else {
      var tail := Join(parts[1..], sep);
      assert s == parts[0] + [sep] + tail;
      IndexOfAfter(parts[0], sep, tail);
      assert s[..|parts[0]|] == parts[0];
      assert s[|parts[0]| + 1..] == tail;
      SplitJoin(parts[1..], sep);
      assert parts == [parts[0]] + parts[1..];
    }
  }

  lemma IndexOfAbsent(s: string, c: char)
    requires c !in s
    ensures IndexOf(s, c) == |s|
  {
  }

  lemma IndexOfAfter(a: string, c: char, b: string)
    requires c !in a
    ensures IndexOf(a + [c] + b, c) == |a|
  {
    var s := a + [c] + b;
    assert s[..|a|] == a;
    assert s[|a|] == c;
  }

  // ---------------------------------------------------------------------
  // %d

  lemma {:induction false} DecimalRoundTrip(n: nat)
    ensures DecimalValue(NatToString(n)) == n
  {
    if n >= 10 {
      DecimalRoundTrip(n / 10);
      var s := NatToString(n);
      assert s[..|s| - 1] == NatToString(n / 10);
    }
  }
}

=== FILE: tags.dfy ===
/**
 The `env` tag parser of load_config.go: `SplitTags`, the `strings.FieldsFunc`
 call of `getTags`, and `tagSliceToKeyMap`, which turns the tokens into the
 directive map and records the name in the set of names already seen.
 */
module Tags {
  import opened Wrappers
  import opened Strings
  import opened Errors

  /** `SplitTags`: tags are split on `;` and on `:`. */
  predicate SplitTags(c: char): (r: bool)
    ensures r <==> c in ";:"
  {
    c == ';' || c == ':'
  }

  /** The parsed tag: "name", "default" and flag keys, as Go's `map[string]string`. */
  type Directives = map<string, string>

  /** Go's map index: a missing key reads as "". */
  function Get(tags: Directives, key: string): string {
    if key in tags then tags[key] else ""
  }

  /** The tag's tokens: never empty, never containing `;` or `:`. */
  function Tokens(tag: string): (r: seq<string>)
    ensures forall i :: 0 <= i < |r| ==> r[i] != "" && NoneMatch(r[i], SplitTags)
  {
    Fields(tag, SplitTags)
  }

  /** The outcome of a tag parse. `seen` is returned on failure too: a
      duplicate `default` is found after the name has been recorded. */
  datatype TagParse = TagParse(seen: set<string>, result: Result<Directives, TagError>)

  /** The option loop never reads past the last token: every `default` it
      treats as a key, except one reported as a duplicate, has a successor. */
  predicate DefaultsHaveValues(tokens: seq<string>, i: nat, hasDefault: bool)
    decreases |tokens| - i
  {
    if i >= |tokens| then true
    else if tokens[i] == "default" then
      hasDefault || (i + 1 < |tokens| && DefaultsHaveValues(tokens, i + 2, true))
    else DefaultsHaveValues(tokens, i + 1, hasDefault)
  }

  /** The inputs on which `tagSliceToKeyMap` does not index past the end. */
  predicate CanParse(tokens: seq<string>, seen: set<string>) {
    |tokens| == 0 || tokens[0] in seen || DefaultsHaveValues(tokens, 1, false)
  }

  /** The first `default` token at or after `i`, or |tokens| when there is none.
      Reading options from `i` with no default yet, every token before it is a
      flag, so this is the `default` the loop reads as a key. */
  function FirstDefault(tokens: seq<string>, i: nat): (j: nat)
    requires i <= |tokens|
    ensures i <= j <= |tokens|
    ensures j < |tokens| ==> tokens[j] == "default"
    ensures forall l :: i <= l < j ==> tokens[l] != "default"
    decreases |tokens| - i
  {
    if i == |tokens| || tokens[i] == "default" then i else FirstDefault(tokens, i + 1)
  }

  /** The option part of `tagSliceToKeyMap`, from token `i` on, adding to `m`. */
  function ParseOptions(tokens: seq<string>, i: nat, m: Directives): (r: Result<Directives, TagError>)
    requires i <= |tokens|
    requires DefaultsHaveValues(tokens, i, "default" in m)
    // only a second `default` fails, so a failure needs two of them
    ensures r.Failure? ==> r.error == DuplicateTag("default")
    ensures r.Failure? ==> multiset(tokens[i..])["default"] + (if "default" in m then 1 else 0) >= 2
    ensures multiset(tokens[i..])["default"] + (if "default" in m then 1 else 0) <= 1 ==> r.Success?
    // keys come from `m` or from the tokens; keys the tokens do not name keep their value
    ensures r.Success? ==> forall k :: k in r.value ==> k in m || k in tokens[i..]
    ensures r.Success? ==> forall k :: k in m && k !in tokens[i..] ==> k in r.value && r.value[k] == m[k]
    // only `default` takes a value; every other option maps to ""
    ensures r.Success? ==> forall k :: k in r.value && k != "default" ==> r.value[k] == "" || (k in m && r.value[k] == m[k])
    ensures r.Success? && "default" in m ==> "default" in r.value && r.value["default"] == m["default"]
    ensures r.Success? && "default" in r.value && "default" !in m ==>
              exists j :: i <= j < |tokens| - 1 && tokens[j] == "default" && r.value["default"] == tokens[j + 1]
    decreases |tokens| - i
  {
    if i == |tokens| then Success(m)
    else if tokens[i] == "default" then
      if "default" in m then Failure(DuplicateTag("default"))
      else
        assert tokens[i..] == [tokens[i], tokens[i + 1]] + tokens[i + 2..];
        ParseOptions(tokens, i + 2, m["default" := tokens[i + 1]])
    else
      assert tokens[i..] == [tokens[i]] + tokens[i + 1..];
      ParseOptions(tokens, i + 1, m[tokens[i] := ""])
  }

  /** Once a default has been read, the option list fails exactly when another
      `default` follows. */
  lemma {:induction false} OptionsAfterDefault(tokens: seq<string>, i: nat, m: Directives)
    requires i <= |tokens| && "default" in m
    requires DefaultsHaveValues(tokens, i, true)
    ensures ParseOptions(tokens, i, m).Failure? <==> FirstDefault(tokens, i) < |tokens|
    decreases |tokens| - i
  {
    if i < |tokens| && tokens[i] != "default" {
      OptionsAfterDefault(tokens, i + 1, m[tokens[i] := ""]);
    }
  }

  /** Option lists with no `default` in them parse, and set no default. */
  lemma {:induction false} OptionsWithoutDefaultKey(tokens: seq<string>, i: nat, m: Directives)
    requires i <= |tokens| && "default" !in m
    requires DefaultsHaveValues(tokens, i, false)
    requires FirstDefault(tokens, i) == |tokens|
    ensures ParseOptions(tokens, i, m).Success? && "default" !in ParseOptions(tokens, i, m).value
    decreases |tokens| - i
  {
    if i < |tokens| {
      OptionsWithoutDefaultKey(tokens, i + 1, m[tokens[i] := ""]);
    }
  }

  /** The first `default` read as a key takes the token after it as its value,
      and the list fails exactly when another `default` follows that value. */
  lemma {:induction false} OptionsFirstDefaultKey(tokens: seq<string>, i: nat, m: Directives)
    requires i <= |tokens| && "default" !in m
    requires DefaultsHaveValues(tokens, i, false)
    requires FirstDefault(tokens, i) < |tokens|
    ensures var r := ParseOptions(tokens, i, m);
            var j := FirstDefault(tokens, i);
            && j + 1 < |tokens|
            && (r.Failure? <==> FirstDefault(tokens, j + 2) < |tokens|)
    decreases |tokens| - i
  {
    if tokens[i] == "default" {
      OptionsReadDefault(tokens, i, m);
      OptionsAfterDefault(tokens, i + 2, m["default" := tokens[i + 1]]);
    } else {
      OptionsSkipFlag(tokens, i, m);
      OptionsFirstDefaultKey(tokens, i + 1, m[tokens[i] := ""]);
    }
  }

  /** The value of the first `default` read as a key is the token after it. */
  lemma {:induction false} OptionsFirstDefaultValue(tokens: seq<string>, i: nat, m: Directives)
    requires i <= |tokens| && "default" !in m
    requires DefaultsHaveValues(tokens, i, false)
    requires FirstDefault(tokens, i) < |tokens|
    ensures FirstDefault(tokens, i) + 1 < |tokens|
    ensures var r := ParseOptions(tokens, i, m);
            r.Success? ==> "default" in r.value && r.value["default"] == tokens[FirstDefault(tokens, i) + 1]
    decreases |tokens| - i
  {
    if tokens[i] == "default" {
      OptionsReadDefault(tokens, i, m);
    } else {
      OptionsSkipFlag(tokens, i, m);
      OptionsFirstDefaultValue(tokens, i + 1, m[tokens[i] := ""]);
    }
  }

  /** The first `default` takes the token after it as its value. */
  lemma OptionsReadDefault(tokens: seq<string>, i: nat, m: Directives)
    requires i < |tokens| && tokens[i] == "default" && "default" !in m
    requires DefaultsHaveValues(tokens, i, false)
    ensures i + 1 < |tokens| && FirstDefault(tokens, i) == i
    ensures DefaultsHaveValues(tokens, i + 2, true)
    ensures ParseOptions(tokens, i, m) == ParseOptions(tokens, i + 2, m["default" := tokens[i + 1]])
  {
  }

  /** A token other than `default` is a flag: the loop moves past it. */
  lemma OptionsSkipFlag(tokens: seq<string>, i: nat, m: Directives)
    requires i < |tokens| && tokens[i] != "default"
    requires DefaultsHaveValues(tokens, i, "default" in m)
    ensures DefaultsHaveValues(tokens, i + 1, "default" in m[tokens[i] := ""])
    ensures FirstDefault(tokens, i) == FirstDefault(tokens, i + 1)
    ensures ParseOptions(tokens, i, m) == ParseOptions(tokens, i + 1, m[tokens[i] := ""])
  {
  }

  /** With no `default` left, every remaining token is a flag mapped to "". */
  lemma OptionsAllFlags(tokens: seq<string>, i: nat, m: Directives)
    requires i <= |tokens| && FirstDefault(tokens, i) == |tokens|
    requires DefaultsHaveValues(tokens, i, "default" in m)
    ensures ParseOptions(tokens, i, m) == Success(WithFlags(m, tokens[i..]))
  {
    SkipFlags(tokens, i, |tokens|, m);
    assert tokens[i..|tokens|] == tokens[i..];
  }

  /** The whole map when the option loop reads one default: every flag before
      the first `default` maps to "", that `default` takes the token after it,
      and every flag after that maps to "". */
  lemma OptionsExact(tokens: seq<string>, i: nat, j: nat, m: Directives)
    requires i <= j && j + 1 < |tokens| && "default" !in m
    requires tokens[j] == "default" && forall l :: i <= l < j ==> tokens[l] != "default"
    requires DefaultsHaveValues(tokens, i, false) && FirstDefault(tokens, j + 2) == |tokens|
    ensures ParseOptions(tokens, i, m)
            == Success(WithFlags(WithFlags(m, tokens[i..j])["default" := tokens[j + 1]], tokens[j + 2..]))
  {
    var m1 := WithFlags(m, tokens[i..j]);
    SkipFlags(tokens, i, j, m);
    OptionsReadDefault(tokens, j, m1);
    OptionsAllFlags(tokens, j + 2, m1["default" := tokens[j + 1]]);
  }

  /** A `default` right after `default` is its value, not a second key. */
  lemma DefaultValueMayBeDefault(seen: set<string>)
    requires "X" !in seen
    ensures CanParse(["X", "default", "default", "foo"], seen)
    ensures TagSliceToKeyMap(["X", "default", "default", "foo"], seen)
         == TagParse(seen + {"X"}, Success(map["name" := "X", "default" := "default", "foo" := ""]))
  {
    var ts := ["X", "default", "default", "foo"];
    assert DefaultsHaveValues(ts, 1, false);
    assert ParseOptions(ts, 1, map["name" := "X"]) == ParseOptions(ts, 3, map["name" := "X", "default" := "default"]);
  }

  /** What the option loop makes of a tag's tokens after a new name `tokens[0]`.
      With no `default` token, the name and every flag mapped to "". Otherwise the
      first `default` is read as a key and takes the token after it; the parse
      fails exactly when another `default` follows that value, and succeeds with
      the name, every flag mapped to "", and that default. */
  predicate ParsedAsDirective(tokens: seq<string>, r: Result<Directives, TagError>)
    requires |tokens| > 0
  {
    var j := FirstDefault(tokens, 1);
    var m := map["name" := tokens[0]];
    && (j == |tokens| ==> r == Success(WithFlags(m, tokens[1..])) && "default" !in r.value)
    && (j < |tokens| ==>
          && j + 1 < |tokens|
          && (r.Success? <==> FirstDefault(tokens, j + 2) == |tokens|)
          && (r.Success? ==> Get(r.value, "default") == tokens[j + 1])
          && (r.Success? ==> r == Success(WithFlags(WithFlags(m, tokens[1..j])["default" := tokens[j + 1]], tokens[j + 2..]))))
  }

  lemma NamedTagOutcome(tokens: seq<string>)
    requires |tokens| > 0 && DefaultsHaveValues(tokens, 1, false)
    ensures ParsedAsDirective(tokens, ParseOptions(tokens, 1, map["name" := tokens[0]]))
  {
    var m := map["name" := tokens[0]];
    var r := ParseOptions(tokens, 1, m);
    var j := FirstDefault(tokens, 1);
    if j == |tokens| {
      OptionsWithoutDefaultKey(tokens, 1, m);
      OptionsAllFlags(tokens, 1, m);
    } else {
      OptionsFirstDefaultKey(tokens, 1, m);
      OptionsFirstDefaultValue(tokens, 1, m);
      if FirstDefault(tokens, j + 2) == |tokens| {
        OptionsExact(tokens, 1, j, m);
      }
    }
  }

  /** Where the default of a new name's tag comes from, without the whole map. */
  lemma NamedTagDefault(tokens: seq<string>)
    requires |tokens| > 0 && DefaultsHaveValues(tokens, 1, false)
    ensures var r := ParseOptions(tokens, 1, map["name" := tokens[0]]);
            var j := FirstDefault(tokens, 1);
            && (j == |tokens| ==> r.Success? && "default" !in r.value)
            && (j < |tokens| ==>
                  && j + 1 < |tokens|
                  && (r.Success? <==> FirstDefault(tokens, j + 2) == |tokens|)
                  && (r.Success? ==> Get(r.value, "default") == tokens[j + 1]))
  {
    var m := map["name" := tokens[0]];
    if FirstDefault(tokens, 1) == |tokens| {
      OptionsWithoutDefaultKey(tokens, 1, m);
    } else {
      OptionsFirstDefaultKey(tokens, 1, m);
      OptionsFirstDefaultValue(tokens, 1, m);
    }
  }

  /** `tagSliceToKeyMap`: the first token is the name, which must not have been seen. */
  function TagSliceToKeyMap(tokens: seq<string>, seen: set<string>): (r: TagParse)
    requires CanParse(tokens, seen)
    ensures |tokens| == 0 ==> r == TagParse(seen, Success(map[]))
    ensures |tokens| > 0 && tokens[0] in seen ==> r == TagParse(seen, Failure(DuplicateTag(tokens[0])))
    // the seen set grows by exactly the name, and only when the name is new
    ensures |tokens| > 0 && tokens[0] !in seen ==> r.seen == seen + {tokens[0]}
    ensures r.result.Failure? ==>
              |tokens| > 0 &&
              ((tokens[0] in seen && r.result.error == DuplicateTag(tokens[0])) ||
               (r.result.error == DuplicateTag("default") && multiset(tokens[1..])["default"] >= 2))
    ensures |tokens| > 0 && tokens[0] !in seen && multiset(tokens[1..])["default"] <= 1 ==> r.result.Success?
    ensures r.result.Success? && |tokens| > 0 && "name" !in tokens[1..] ==> Get(r.result.value, "name") == tokens[0]
    // a new name parses unless a second `default` is read as a key after the
    // first one; the default is the token after the first `default`
    ensures |tokens| > 0 && tokens[0] !in seen ==>
              var j := FirstDefault(tokens, 1);
              && (j == |tokens| ==> r.result.Success? && "default" !in r.result.value)
              && (j < |tokens| ==>
                    && j + 1 < |tokens|
                    && (r.result.Success? <==> FirstDefault(tokens, j + 2) == |tokens|)
                    && (r.result.Success? ==> Get(r.result.value, "default") == tokens[j + 1]))
  {
    if |tokens| == 0 then TagParse(seen, Success(map[]))
    else if tokens[0] in seen then TagParse(seen, Failure(DuplicateTag(tokens[0])))
    else
      NamedTagDefault(tokens);
      TagParse(seen + {tokens[0]}, ParseOptions(tokens, 1, map["name" := tokens[0]]))
  }

  lemma NamedTagParse(tokens: seq<string>, seen: set<string>)
    requires |tokens| > 0 && tokens[0] !in seen && DefaultsHaveValues(tokens, 1, false)
    ensures TagSliceToKeyMap(tokens, seen) == TagParse(seen + {tokens[0]}, ParseOptions(tokens, 1, map["name" := tokens[0]]))
  {
  }

  /** The whole map of a new name's tag: the name, every flag mapped to "", and
      the first `default` read as a key with the token after it. */
  lemma TagSliceToKeyMapExact(tokens: seq<string>, seen: set<string>)
    requires CanParse(tokens, seen) && |tokens| > 0 && tokens[0] !in seen
    ensures ParsedAsDirective(tokens, TagSliceToKeyMap(tokens, seen).result)
  {
    NamedTagOutcome(tokens);
    NamedTagParse(tokens, seen);
  }

  /** A tag whose option list reads one default and names no `name` key keeps
      its first token as the name and the token after the first `default` as
      the default. */
  lemma DefaultTagParse(tokens: seq<string>, seen: set<string>)
    requires |tokens| > 0 && tokens[0] !in seen && DefaultsHaveValues(tokens, 1, false)
    requires FirstDefault(tokens, 1) + 1 < |tokens| && FirstDefault(tokens, FirstDefault(tokens, 1) + 2) == |tokens|
    requires forall l :: 1 <= l < |tokens| && l != FirstDefault(tokens, 1) + 1 ==> tokens[l] != "name"
    ensures var r := TagSliceToKeyMap(tokens, seen);
            && r.seen == seen + {tokens[0]} && r.result.Success?
            && Get(r.result.value, "name") == tokens[0]
            && "default" in r.result.value && r.result.value["default"] == tokens[FirstDefault(tokens, 1) + 1]
  {
    var m := map["name" := tokens[0]];
    OptionsKeepName(tokens, m);
    OptionsFirstDefaultValue(tokens, 1, m);
    NamedTagParse(tokens, seen);
  }

  /** The name survives an option list that reads one default and names no
      `name` key elsewhere. */
  lemma OptionsKeepName(tokens: seq<string>, m: Directives)
    requires |tokens| > 0 && DefaultsHaveValues(tokens, 1, false) && m == map["name" := tokens[0]]
    requires FirstDefault(tokens, 1) + 1 < |tokens| && FirstDefault(tokens, FirstDefault(tokens, 1) + 2) == |tokens|
    requires forall l :: 1 <= l < |tokens| && l != FirstDefault(tokens, 1) + 1 ==> tokens[l] != "name"
    ensures ParseOptions(tokens, 1, m).Success? && Get(ParseOptions(tokens, 1, m).value, "name") == tokens[0]
  {
    var j := FirstDefault(tokens, 1);
    var m1 := WithFlags(m, tokens[1..j])["default" := tokens[j + 1]];
    OptionsExact(tokens, 1, j, m);
    NotInSlice(tokens, 1, j, "name");
    NotInSlice(tokens, j + 2, |tokens|, "name");
    WithFlagsKeeps(m, tokens[1..j], "name");
    WithFlagsKeeps(m1, tokens[j + 2..], "name");
  }

  lemma NotInSlice(s: seq<string>, a: nat, b: nat, x: string)
    requires a <= b <= |s|
    requires forall l :: a <= l < b ==> s[l] != x
    ensures x !in s[a..b]
    ensures b == |s| ==> x !in s[a..]
  {
  }

  /** A key that is not a flag keeps its value. */
  lemma WithFlagsKeeps(m: Directives, flags: seq<string>, k: string)
    requires k in m && k !in flags
    ensures k in WithFlags(m, flags) && WithFlags(m, flags)[k] == m[k]
  {
  }

  /** `getTags`: split the tag, then build the directive map. An empty tag
      parses to an empty map and records nothing; no parsed value contains a
      separator. */
  function GetTags(tag: string, seen: set<string>): (r: TagParse)
    requires CanParse(Tokens(tag), seen)
    ensures Tokens(tag) == [] ==> r == TagParse(seen, Success(map[]))
    ensures r.result.Success? ==> forall k :: k in r.result.value ==> NoneMatch(r.result.value[k], SplitTags)
  {
    TokenValuesSeparatorFree(Tokens(tag), seen);
    TagSliceToKeyMap(Tokens(tag), seen)
  }

  // ---------------------------------------------------------------------
  // Every value comes from the tag

  lemma {:induction false} OptionValuesAreTokens(tokens: seq<string>, i: nat, m: Directives)
    requires i <= |tokens|
    requires DefaultsHaveValues(tokens, i, "default" in m)
    requires ParseOptions(tokens, i, m).Success?
    ensures var r := ParseOptions(tokens, i, m).value;
            forall k :: k in r ==> r[k] == "" || (k in m && r[k] == m[k]) || r[k] in tokens[i..]
    decreases |tokens| - i
  {
    if i < |tokens| {
      if tokens[i] == "default" {
        OptionValuesAreTokens(tokens, i + 2, m["default" := tokens[i + 1]]);
        assert tokens[i + 1] in tokens[i..];
        assert forall t :: t in tokens[i + 2..] ==> t in tokens[i..];
      } else {
        OptionValuesAreTokens(tokens, i + 1, m[tokens[i] := ""]);
        assert forall t :: t in tokens[i + 1..] ==> t in tokens[i..];
      }
    }
  }

  /** The values parsed from separator-free tokens are separator-free. */
  lemma TokenValuesSeparatorFree(tokens: seq<string>, seen: set<string>)
    requires CanParse(tokens, seen)
    requires forall i :: 0 <= i < |tokens| ==> NoneMatch(tokens[i], SplitTags)
    ensures var r := TagSliceToKeyMap(tokens, seen).result;
            r.Success? ==> forall k :: k in r.value ==> NoneMatch(r.value[k], SplitTags)
  {
    if |tokens| > 0 && tokens[0] !in seen {
      var m := map["name" := tokens[0]];
      var r := TagSliceToKeyMap(tokens, seen).result;
      if r.Success? {
        OptionValuesAreTokens(tokens, 1, m);
        forall k | k in r.value
          ensures NoneMatch(r.value[k], SplitTags)
        {
          if r.value[k] in tokens[1..] {
            var j :| 1 <= j < |tokens| && tokens[j] == r.value[k];
          }
        }
      }
    }
  }

  /** A parsed value never contains `;` or `:`, so neither can a default. */
  lemma ValuesAreSeparatorFree(tag: string, seen: set<string>)
    requires CanParse(Tokens(tag), seen)
    requires GetTags(tag, seen).result.Success?
    ensures var tags := GetTags(tag, seen).result.value;
            forall k :: k in tags ==> NoneMatch(tags[k], SplitTags)
  {
    TokenValuesSeparatorFree(Tokens(tag), seen);
  }

  // ---------------------------------------------------------------------
  // The directive a well-formed tag spells, and the round trip through text

  /** A directive: a name, an optional default and flags such as `optional`. */
  datatype Directive = Directive(name: string, default: Option<string>, flags: seq<string>)

  predicate IsToken(t: string) {
    t != "" && NoneMatch(t, SplitTags)
  }

  predicate ValidDirective(d: Directive) {
    && IsToken(d.name)
    && (d.default.Some? ==> IsToken(d.default.value))
    && forall i :: 0 <= i < |d.flags| ==> IsToken(d.flags[i]) && d.flags[i] != "default" && d.flags[i] != "name"
  }

  function DirectiveTokens(d: Directive): seq<string> {
    [d.name] + (if d.default.Some? then ["default", d.default.value] else []) + d.flags
  }

  function DirectiveSeparators(d: Directive): seq<char> {
    (if d.default.Some? then [';', ':'] else []) + seq(|d.flags|, _ => ';')
  }

  /** The tag text for `d`, e.g. "DB_USER;default:user;optional". */
  function Render(d: Directive): string {
    Interleave(DirectiveTokens(d), DirectiveSeparators(d))
  }

  function DefaultText(d: Directive): string {
    match d.default
    case Some(v) => v
    case None => ""
  }

  /** The directive map `d` stands for. */
  function Meaning(d: Directive): Directives {
    var keys := {"name"} + (if d.default.Some? then {"default"} else {}) + (set f | f in d.flags);
    map k | k in keys :: if k == "name" then d.name else if k == "default" then DefaultText(d) else ""
  }

  /** `m` with every flag set to "". */
  function WithFlags(m: Directives, flags: seq<string>): Directives {
    map k | k in m.Keys + (set f | f in flags) :: if k in flags then "" else m[k]
  }

  lemma WithFlagsCons(m: Directives, t: string, rest: seq<string>)
    ensures WithFlags(m[t := ""], rest) == WithFlags(m, [t] + rest)
  {
    var a := WithFlags(m[t := ""], rest);
    var b := WithFlags(m, [t] + rest);
    assert a.Keys == b.Keys;
    forall k | k in a
      ensures a[k] == b[k]
    {
    }
  }

  /** Flags in `tokens[i..j]` are added one by one and affect nothing else. */
  lemma {:induction false} SkipFlags(tokens: seq<string>, i: nat, j: nat, m: Directives)
    requires i <= j <= |tokens|
    requires forall l :: i <= l < j ==> tokens[l] != "default"
    requires DefaultsHaveValues(tokens, i, "default" in m)
    ensures "default" in WithFlags(m, tokens[i..j]) <==> "default" in m
    ensures DefaultsHaveValues(tokens, j, "default" in m)
    ensures ParseOptions(tokens, i, m) == ParseOptions(tokens, j, WithFlags(m, tokens[i..j]))
    decreases j - i
  {
    if i == j {
      assert WithFlags(m, tokens[i..j]) == m;
    } else {
      var m' := m[tokens[i] := ""];
      assert "default" in m' <==> "default" in m;
      SkipFlags(tokens, i + 1, j, m');
      assert tokens[i..j] == [tokens[i]] + tokens[i + 1..j];
      WithFlagsCons(m, tokens[i], tokens[i + 1..j]);
    }
  }

  /** The base map (name, and default when present) plus the flags is the directive's meaning. */
  lemma WithFlagsMeaning(d: Directive, m0: Directives)
    requires ValidDirective(d)
    requires m0 == if d.default.Some? then map["name" := d.name, "default" := d.default.value]
                   else map["name" := d.name]
    ensures WithFlags(m0, d.flags) == Meaning(d)
  {
    var w := WithFlags(m0, d.flags);
    var meaning := Meaning(d);
    assert w.Keys == meaning.Keys;
    forall k | k in w
      ensures w[k] == meaning[k]
    {
      if k in d.flags {
        assert k != "name" && k != "default";
      }
    }
  }

  lemma DirectiveTokensParse(d: Directive, seen: set<string>)
    requires ValidDirective(d) && d.name !in seen
    ensures CanParse(DirectiveTokens(d), seen)
    ensures TagSliceToKeyMap(DirectiveTokens(d), seen) == TagParse(seen + {d.name}, Success(Meaning(d)))
  {
    var ts := DirectiveTokens(d);
    if d.default.Some? {
      OptionsWithDefault(d);
    } else {
      OptionsWithoutDefault(d);
    }
  }

  lemma OptionsWithDefault(d: Directive)
    requires ValidDirective(d) && d.default.Some?
    ensures DefaultsHaveValues(DirectiveTokens(d), 1, false)
    ensures ParseOptions(DirectiveTokens(d), 1, map["name" := d.name]) == Success(Meaning(d))
  {
    var ts := DirectiveTokens(d);
    var m := map["name" := d.name];
    var m0 := map["name" := d.name, "default" := d.default.value];
    assert ts[3..|ts|] == d.flags;
    DefaultsDefinedAfterDefault(ts, 3);
    SkipFlags(ts, 3, |ts|, m0);
    assert ts[1] == "default" && ts[2] == d.default.value;
    assert m["default" := ts[2]] == m0;
    assert ParseOptions(ts, 1, m) == ParseOptions(ts, 3, m0);
    assert ParseOptions(ts, |ts|, WithFlags(m0, d.flags)) == Success(WithFlags(m0, d.flags));
    WithFlagsMeaning(d, m0);
  }

  lemma OptionsWithoutDefault(d: Directive)
    requires ValidDirective(d) && d.default.None?
    ensures DefaultsHaveValues(DirectiveTokens(d), 1, false)
    ensures ParseOptions(DirectiveTokens(d), 1, map["name" := d.name]) == Success(Meaning(d))
  {
    var ts := DirectiveTokens(d);
    var m := map["name" := d.name];
    assert ts[1..|ts|] == d.flags;
    SkipFlagsDefined(ts, 1, false);
    SkipFlags(ts, 1, |ts|, m);
    assert ParseOptions(ts, |ts|, WithFlags(m, d.flags)) == Success(WithFlags(m, d.flags));
    WithFlagsMeaning(d, m);
  }

  /** Once a default has been read, the loop stops at the next `default`, so it never overruns. */
  lemma {:induction false} DefaultsDefinedAfterDefault(tokens: seq<string>, i: nat)
    ensures DefaultsHaveValues(tokens, i, true)
    decreases |tokens| - i
  {
    if i < |tokens| && tokens[i] != "default" {
      DefaultsDefinedAfterDefault(tokens, i + 1);
    }
  }

  lemma {:induction false} SkipFlagsDefined(tokens: seq<string>, i: nat, h: bool)
    requires i <= |tokens|
    requires forall l :: i <= l < |tokens| ==> tokens[l] != "default"
    ensures DefaultsHaveValues(tokens, i, h)
    decreases |tokens| - i
  {
    if i < |tokens| {
      SkipFlagsDefined(tokens, i + 1, h);
    }
  }

  lemma RenderTokens(d: Directive)
    requires ValidDirective(d)
    ensures Tokens(Render(d)) == DirectiveTokens(d)
  {
    var ts := DirectiveTokens(d);
    var ss := DirectiveSeparators(d);
    assert forall i :: 0 <= i < |ts| ==> IsToken(ts[i]);
    FieldsOfInterleave(ts, ss, SplitTags);
  }

  /** Round trip: the tag text of a directive parses back to that directive's
      map, and records exactly its name. */
  lemma RenderRoundTrip(d: Directive, seen: set<string>)
    requires ValidDirective(d) && d.name !in seen
    ensures CanParse(Tokens(Render(d)), seen)
    ensures GetTags(Render(d), seen) == TagParse(seen + {d.name}, Success(Meaning(d)))
  {
    RenderTokens(d);
    DirectiveTokensParse(d, seen);
  }

  /** A second `default` in one tag fails, after the name has been recorded. */
  lemma SecondDefaultFails(d: Directive, v: string, seen: set<string>)
    requires ValidDirective(d) && d.default.Some? && IsToken(v) && d.name !in seen
    ensures CanParse(Tokens(Render(d) + ";default:" + v), seen)
    ensures GetTags(Render(d) + ";default:" + v, seen)
         == TagParse(seen + {d.name}, Failure(DuplicateTag("default")))
  {
    SecondDefaultTokens(d, v);
    SecondDefaultParse(d, v, seen);
  }

  /** Appending ";default:v" to a rendered directive appends the two tokens. */
  lemma SecondDefaultTokens(d: Directive, v: string)
    requires ValidDirective(d) && IsToken(v)
    ensures Tokens(Render(d) + ";default:" + v) == DirectiveTokens(d) + ["default", v]
  {
    assert IsToken("default");
    AppendPairTokens(d, "default", v, ';', ':');
    assert Render(d) + [';'] + "default" + [':'] + v == Render(d) + ";default:" + v;
  }

  /** "a<c>b" with a separator c splits into the two tokens. */
  lemma PairFields(a: string, c: char, b: string)
    requires IsToken(a) && IsToken(b) && SplitTags(c)
    ensures Fields(a + [c] + b, SplitTags) == [a, b]
  {
    FieldsAroundSeparator(a, c, b, SplitTags);
    FieldsOfToken(a, SplitTags);
    FieldsOfToken(b, SplitTags);
  }

  /** Appending two more tokens, each after a separator, to a rendered directive
      appends them to its token list. */
  lemma AppendPairTokens(d: Directive, k: string, v: string, c1: char, c2: char)
    requires ValidDirective(d) && IsToken(k) && IsToken(v) && SplitTags(c1) && SplitTags(c2)
    ensures Tokens(Render(d) + [c1] + k + [c2] + v) == DirectiveTokens(d) + [k, v]
  {
    RenderTokens(d);
    PairFields(k, c2, v);
    assert Render(d) + [c1] + k + [c2] + v == Render(d) + [c1] + (k + [c2] + v);
    FieldsAroundSeparator(Render(d), c1, k + [c2] + v, SplitTags);
  }

  /** The token list of a directive with a default, followed by a second default, fails
      on the second one. */
  lemma SecondDefaultParse(d: Directive, v: string, seen: set<string>)
    requires ValidDirective(d) && d.default.Some? && d.name !in seen
    ensures CanParse(DirectiveTokens(d) + ["default", v], seen)
    ensures TagSliceToKeyMap(DirectiveTokens(d) + ["default", v], seen)
         == TagParse(seen + {d.name}, Failure(DuplicateTag("default")))
  {
    var ts := DirectiveTokens(d) + ["default", v];
    var m0 := map["name" := d.name]["default" := d.default.value];
    var n := |ts| - 2;
    assert ts[0] == d.name && ts[1] == "default" && ts[n] == "default";
    assert forall l :: 3 <= l < n ==> ts[l] == d.flags[l - 3];
    DefaultsDefinedAfterDefault(ts, 3);
    SkipFlags(ts, 3, n, m0);
    assert DefaultsHaveValues(ts, 1, false);
  }
}

=== FILE: wrappers.dfy ===
/** Failure-compatible Option and Result datatypes shared by the whole model. */
module Wrappers {

  datatype Option<+T> = None | Some(value: T)

  /** Either a value or an error; usable with `:-`. */
  datatype Result<+T, +E> = Success(value: T) | Failure(error: E) {

    predicate IsFailure() {
      Failure?
    }

    function PropagateFailure<U>(): Result<U, E>
      requires Failure?
    {
      Failure(error)
    }

    function Extract(): T
      requires Success?
    {
      value
    }
  }
}
